=== FILE: README.md ===
# Maxaboom overlay coordinator, in Dafny

This project models the overlay state machine of the Maxaboom storefront's client app:
class `MaxaboomApp` in `src/app.js`. The class shows and hides four kinds of transient surface:
- toasts
- slide-in menus
- backdrops
- the `<aside>` panel

It works across the page's three regions ("parts"): `<main>` (`'0p'`), the aside (`'1p'`) and
the full page (`'2p'`, also used for any other tag). The class sequences these surfaces with
`setTimeout` timers stored in its own fields, and with promises that resolve when a timer fires.

## Layout

- `parts.dfy`, module `Parts`:
  - the part tags and the three regions;
  - the region resolver, the ternary every region-scoped method uses;
  - `PerRegion<T>`, one surface of a kind per region.
- `templates.dfy`, module `Templates`:
  - the pure helpers: the `html` tag function (`String.raw` over values, array values joined
    with a space) and the toast's emoji and content;
  - the toast type constants.
- `overlay.dfy`, module `Overlay`:
  - the coordinator's state as a value, `AppState`;
  - one step function per method and per timer callback.
- `safety.dfy`, module `Safety`:
  - the invariant the coordinator keeps, and its preservation by every step;
  - `Run`, which applies any sequence of calls and firings, and the lemmas over it.
- `behaviour.dfy`, module `Behaviour`: what sequences of calls do. It covers:
  - the toast lifecycle and preemption;
  - last call wins for menus;
  - the two menu lookups;
  - the timers nothing cancels.
- `app.dfy`, module `App`: the class `MaxaboomApp`.
  - Its fields are the app's flag, timer fields and surfaces.
  - Its methods update them in place, as the JavaScript does.
  - Each method that has a step function in `Overlay` is proved to leave
    `State() == Overlay.<step>(old(State()), …)`.
  - `FadeToastOut`, which has no step function of its own, is proved to fill the fade slot and
    change nothing else.
  - `GetCurrentMenusElement`, `GetCurrentDialogsElement`, `GetMenuById` and `IsMenuShownById`
    are functions reading the fields; the last two are proved equal to their `Overlay`
    counterparts.
  - Each public method and timer callback also keeps `Valid()`, the invariant of `Safety`.
  - The internal helpers `ClearToast`, `FadeToastOut` and `CancelMenuTimers` run only inside
    other methods, which may break the invariant part-way. They are proved against their
    specification only.

### How the page and the timers are represented

- **Surfaces.** A surface keeps only the flags the app reads or writes:
  - `hidden`;
  - a menu's `active` attribute;
  - a backdrop's `fade-out` class;
  - the aside's `opened` and `closing` attributes;
  - a toast container's toasts, each with its `fade-out` class.
- **Menus and dialogs.** A menus or dialogs container maps `data-id` to the element.
- **Cancellable timers.** A timer stored in a field that some method passes to `clearTimeout` is
  a slot holding at most one pending callback: `toastOutTimer`, `toastTimer`, `showMenuTimer`
  and `hideMenuTimer`. Clearing empties the slot. The slot records what the callback captured:
  the region, the menu id, and the promise it resolves.
- **Timers nothing clears.** `hideBackdropTimer`, `openAsideTimer` and `closeAsideTimer` are
  never cleared, so overwriting the field does not cancel the earlier timer. These timers are
  kept in the list `detachedTimers`, and any one of them may fire.
- **Promises.** A returned promise is `Rejected(reason)` or `Awaiting(id)`, with a fresh `id`.
  - `resolved` records the promises that have been resolved.
  - The ghost set `superseded` records those whose timer a later call cleared. The app keeps no
    such record: a superseded promise simply never settles.
- **Durations.** Durations are whole milliseconds:
  - a toast's fade fires after `timeoutMs`, which is `timeout * 1000`;
  - its removal fires `timeoutMs / 2` later, which is `timeout * 500`;
  - a menu's timer fires after `duration * 1000`;
  - backdrop and aside durations are already in milliseconds.

### Behaviour as written

`src/app.js` does not load as written. Line 1373 puts a `return` inside a template expression, a
syntax error when the file is parsed. The pages load the file as a module
(`views/register-page.php:78`, `views/shop-page.php:143`,
`views/admin-categories-create-page.php:78`), and `src/scripts/product-page.js:1-2` imports from
it, so none of the behaviour below runs in the shipped file. The model describes the class with
that one expression repaired to `data.noDivider ? 'hidden' : ''`. That expression belongs to the
dialog template, which is not modelled; every other line is taken as it stands.

The model follows the code. Where the code does something its own comments describe
differently, or that a reader would not expect, the model keeps the code's behaviour and proves
what follows from it:

- **One toast flag and one pair of toast timers for the whole app** (`src/app.js:156`, `262`,
  `1149`).
  - While any toast is up, a non-forced toast for any region is dropped
    (`Behaviour.ToastingBlocksEveryRegion`).
  - A forced toast in another region cancels the first toast's timers without clearing its
    container. The first toast then stays on screen until a new toast comes to its region
    (`Behaviour.ForcedToastElsewhereStrandsFirst`).
- **One pair of menu timers for every menu and region** (`src/app.js:326-330`, `394-398`).
  Last call wins app-wide, not per `(region, menuId)`.
- **`getMenuById` is defined twice** (`src/app.js:834-836` and `847-849`). In a class body the
  later definition replaces the earlier one, so the effective lookup is `dialog[data-id=…]` in
  the region's dialogs container (`Behaviour.LookupsAreSplit`).
  - `hideMenuById`, `toggleMenuById` and `isMenuShownById` go through it.
  - `showMenuById` queries the menus container itself (`src/app.js:299`).
  - So showing a menu never changes what `isMenuShownById` reports
    (`Behaviour.ShowMenuKeepsIsShown`).
  - The comment in `toggleMenuById` (`src/app.js:436`) and the docblock of `isMenuShownById`
    (`src/app.js:522-529`) say a shown menu is hidden on toggle. As written, a toggle that
    showed a menu shows it again rather than hiding it (`Behaviour.ToggleShowsAgain`).
  - A menu that only the menus container holds can be shown, but not hidden or toggled
    (`Behaviour.MenuOnlyInMenusContainer`).
- **The backdrop hide timer is never cancelled** (`src/app.js:680`).
  - A backdrop shown again while a hide is pending is still hidden when the hide fires.
  - `showBackdropOf` leaves the `fade-out` class in place (`Behaviour.PendingBackdropHideWins`).
- **The aside close timer is never cancelled.** An `openAside` issued while a close is pending
  is undone when the close fires (`Behaviour.PendingAsideCloseWins`).

## Model

| member | source | states |
|---|---|---|
| `Parts.ResolvePart` | src/app.js:237 | MAIN_PART selects the main region and ASIDE_PART the aside region. Every other tag selects the full page. All three directions are stated as if-and-only-if. |
| `Parts.DefaultPartIsFull` | src/app.js:93-96 | The default part, FULL_PART, resolves to the full page. |
| `Wrappers.Option.GetOr` | src/app.js:229-232 | The `??` defaulting of a toast's type and part: a present value is kept, and an absent one gives the default. |
| `Parts.PerRegion.Set` | src/app.js:237 | Replacing one region's surface leaves the other two regions' surfaces unchanged. |
| `App.MaxaboomApp.GetCurrentMenusElement` | src/app.js:775-777 | Returns the main, aside or full menus container according to the part tag; any other tag gives the full one. |
| `App.MaxaboomApp.GetCurrentDialogsElement` | src/app.js:787-789 | The same resolution over the dialogs containers. |
| `Templates.FirstSpace` | src/app.js:120 | A helper of the reference split, which has no counterpart in the source: returns the index of the first space, where a space sits and none comes before it. |
| `Templates.SplitOnSpace` | src/app.js:120 | The reference inverse of the `join(' ')` at this line; the source never splits. Splitting on spaces always yields at least one piece. |
| `Templates.SplitJoin` | src/app.js:120 | Joining array items with a space loses nothing: splitting the result gives the items back, for non-empty lists of space-free items. |
| `Templates.JoinWithSpace` | src/app.js:120 | `join(' ')` of no items is empty. Otherwise the result starts with the first item and ends with the last, and with two or more items a space follows the first. |
| `Templates.Substitution` | src/app.js:112-125 | A string value is substituted as it is. An array value with no items gives the empty string; with one item, that item; with more, the first item followed by a space. |
| `Templates.RawString` | src/app.js:133 | `String.raw` over no literals is empty. Otherwise the result starts with the first literal and ends with the last. |
| `Templates.RawStringIsInterleaving` | src/app.js:133 | `String.raw` is exactly the concatenation of literal `i` followed by substitution `i`, for every literal with a gap after it: literals interleaved with values, missing values empty, extra values dropped. |
| `Templates.Html` | src/app.js:108-134 | The markup starts with the template's first literal and ends with its last. |
| `Templates.HtmlInterleaves` | src/app.js:108-134 | `html` puts each value after the literal at the same position. An array value is written as its items joined with a space, and a string value as it is. |
| `Templates.ListValueRoundTrip` | src/app.js:116-121 | An array value of at least one item, none of which holds a space, is recovered from its substitution by splitting on spaces. |
| `Templates.ToastEmoji` | src/app.js:1277 | The emoji is non-empty exactly for the error, good and bad types, and is at most one code point. |
| `Templates.EmojiIdentifiesType` | src/app.js:1277 | Two types that show the same non-empty emoji are the same type. |
| `Templates.ToastOf` | src/app.js:1275-1288 | A rendered toast has the given type and is not yet fading. Its emoji badge is hidden exactly for NORMAL. Its text is the emoji (at most one code point) followed by the message. |
| `Templates.ToastMessageRoundTrip` | src/app.js:1285 | The message can be read back from a toast's text once the type is known. |
| `Overlay.Initial` | src/app.js:156 | A fresh page has toasting false, all four timer slots empty, no detached timer, no promise issued, resolved or superseded, every toast container hidden and empty, every backdrop hidden without `fade-out`, the aside hidden with neither `opened` nor `closing`, and the menus and dialogs containers as the page provides them, not necessarily empty. |
| `Overlay.ClearToast` | src/app.js:1123-1134 | Both toast timers are cancelled, app-wide. The given region's toast container is emptied and hidden. The other regions' containers and every other field are unchanged. |
| `Overlay.ToastAccepted` | src/app.js:221 | A forced toast is always accepted and so is any toast while none is up. A non-forced toast while toasting is refused. |
| `Overlay.ToastRegion` | src/app.js:232-237 | The toast goes to the main region exactly for MAIN_PART and to the aside exactly for ASIDE_PART. With no part given, it goes to the full page. |
| `Overlay.ToastFor` | src/app.js:229-247 | The toast keeps the given type and is not fading. With no type it is a NORMAL toast whose badge is hidden and whose text is the message alone. |
| `Overlay.ShowToast` | src/app.js:219-279 | While toasting and not forced, nothing changes. Otherwise: toasting is set; both toast timers are cleared and the fade is scheduled after `timeoutMs`; the target region holds exactly the one new toast, unhidden. The other regions and every other field are unchanged. |
| `Overlay.FadeFirst` | src/app.js:1151-1154 | The first toast gets `fade-out` and keeps its type, badge and text. The other toasts, the number of toasts and the container's `hidden` flag are unchanged. |
| `Overlay.FireToastOutTimer` | src/app.js:1145-1160 | With no fade pending, nothing changes. Otherwise the first toast of the captured container gets `fade-out`, and only now is the removal scheduled, `delayMs / 2` later. `toasting` stays raised, and the other regions' containers and every other field are unchanged. |
| `Overlay.FireToastTimer` | src/app.js:262-275 | With no removal pending, nothing changes. Otherwise toasting is lowered, both timers are cleared, and the captured container is empty and hidden. The other regions' containers and every other field are unchanged. |
| `Overlay.ShowBackdropOf` | src/app.js:655-660 | Only the resolved region's backdrop is unhidden. Its `fade-out` class stays as it was. The other backdrops and every other field are unchanged. |
| `Overlay.HideBackdropOf` | src/app.js:669-687 | `fade-out` is added at once. A hide of that region's backdrop is appended to the timers nothing cancels. The other regions' backdrops and every other field are unchanged. |
| `Overlay.ToggleBackdropOf` | src/app.js:693-718 | A hidden backdrop is shown; a visible one is hidden with the default 300 ms. |
| `Overlay.NodeById` | src/app.js:299 | The query finds an element exactly when the id is in the container, and returns that element. |
| `Overlay.MenusContainerQuery` | src/app.js:296-299 | `showMenuById`'s lookup finds an element exactly when the id is in the resolved region's menus container, and returns that element. |
| `Overlay.GetMenuById` | src/app.js:847-849 | The effective `getMenuById` finds an element exactly when the id is in the resolved region's dialogs container, and returns that element. |
| `Behaviour.LookupsAreSplit` | src/app.js:299 | The lookups are split: `getMenuById`'s result does not depend on the menus containers, and `showMenuById`'s query does not depend on the dialogs containers. |
| `Overlay.MenuNotFound` | src/app.js:302 | The rejection reason carries the id: it is 29 characters longer than the id, and the id can be read back from position 14. |
| `Overlay.CancelMenuTimers` | src/app.js:326-327 | Both menu timer slots are emptied, app-wide. The promises they held become superseded. Every other field is unchanged. |
| `Overlay.ShowMenuById` | src/app.js:292-354 | Rejects, changing nothing, exactly when the menus container has no such id. Otherwise it shows the backdrop, unhides the menu and its container, and cancels both menu timers. It then installs its own timer, with a fresh promise. The other regions' menus containers and backdrops, the menu's other elements, and every other field are unchanged. |
| `Overlay.HideMenuById` | src/app.js:367-420 | Rejects, changing nothing, exactly when `getMenuById` finds nothing. Otherwise it adds `fade-out` to the backdrop, which stays visible until its 300 ms hide fires, and schedules that hide. It then cancels both menu timers and installs its own timer, with a fresh promise. The menu elements, the other backdrops and every other field (toasts, aside, `resolved`) are unchanged. |
| `Behaviour.HideMenuClosesBackdrop` | src/app.js:380 | The backdrop hide that `hideMenuById` schedules, once fired, leaves the region's backdrop hidden without `fade-out`. |
| `Overlay.IsMenuShownById` | src/app.js:530-539 | True exactly when `getMenuById` finds an element and that element is not hidden. |
| `Overlay.ToggleMenuById` | src/app.js:432-444 | Returns `undefined` (None) and changes nothing when `getMenuById` finds nothing. Otherwise it is `hideMenuById` when the menu is shown and `showMenuById` when it is not. |
| `Overlay.FireShowMenuTimer` | src/app.js:330-347 | The captured menu gets `active`, its promise resolves and the slot empties. If the menu is gone, no container changes. The container's `hidden` flag, the other regions and every other field are unchanged. |
| `Overlay.FireHideMenuTimer` | src/app.js:398-416 | The captured element loses `active` and is hidden, the region's menus container is hidden, and the promise resolves. The menus container's elements, the other regions and every other field are unchanged. |
| `Overlay.OpenAside` | src/app.js:586-601 | The aside is unhidden and marked `opened`, and a fresh promise is scheduled to resolve after the duration. Every field other than the aside, the pending list and the promise counter is unchanged; in particular no promise resolves on the spot. |
| `Overlay.CloseAside` | src/app.js:611-631 | The aside is marked `closing` and a close is scheduled with a fresh promise. Every field other than the aside, the pending list and the promise counter is unchanged; in particular no promise resolves on the spot. |
| `Overlay.Without` | src/app.js:680 | A fired timer is taken out of the pending list; the others keep their order. |
| `Overlay.FireDetachedTimer` | src/app.js:680-684 | A backdrop hide leaves the backdrop hidden without `fade-out`. An aside open resolves its promise. An aside close drops `opened` and `closing`, hides the aside and resolves its promise. In each case only those fields and the pending list change; a backdrop hide leaves the other regions' backdrops alone. |
| `Safety.InitialInv` | src/app.js:156 | A fresh page satisfies the invariant. |
| `Safety.ShowToastInv` | src/app.js:219-279 | `showToast` keeps the invariant: toasting holds exactly while one toast phase is pending, and its toast is in place. |
| `Safety.FireToastOutTimerInv` | src/app.js:1149-1157 | The fade callback keeps the invariant. |
| `Safety.FireToastTimerInv` | src/app.js:262-275 | The removal callback keeps the invariant. |
| `Safety.ShowBackdropInv` | src/app.js:655-660 | `showBackdropOf` keeps the invariant. |
| `Safety.HideBackdropInv` | src/app.js:669-687 | `hideBackdropOf` keeps the invariant. |
| `Safety.ToggleBackdropInv` | src/app.js:693-718 | The toggles keep the invariant. |
| `Safety.ShowMenuInv` | src/app.js:292-354 | `showMenuById` keeps the invariant: at most one menu timer, and superseded promises never resolved. |
| `Safety.HideMenuInv` | src/app.js:367-420 | `hideMenuById` keeps the invariant. |
| `Safety.ToggleMenuInv` | src/app.js:432-444 | `toggleMenuById` keeps the invariant. |
| `Safety.FireShowMenuInv` | src/app.js:330-347 | The show callback keeps the invariant. |
| `Safety.FireHideMenuInv` | src/app.js:398-416 | The hide callback keeps the invariant. |
| `Safety.OpenAsideInv` | src/app.js:586-601 | `openAside` keeps the invariant. |
| `Safety.CloseAsideInv` | src/app.js:611-631 | `closeAside` keeps the invariant. |
| `Safety.FireDetachedInv` | src/app.js:680-684 | Firing a timer nothing cancels keeps the invariant. |
| `Safety.ApplyInv` | src/app.js:219-718 | Any single call or timer firing keeps the invariant and only grows the resolved and superseded sets. |
| `Safety.RunInv` | src/app.js:219-718 | Any sequence of calls and firings keeps the invariant, and the resolved and superseded sets only grow. |
| `Safety.SupersededNeverResolves` | src/app.js:326-330 | Last call wins for good: a promise whose timer a later menu call cleared never resolves, whatever follows. |
| `Behaviour.ShowToastDefaults` | src/app.js:229-237 | With no type and no part, the toast is a NORMAL toast without emoji, on the full page. The main and aside containers are untouched. |
| `Behaviour.ToastLifecycle` | src/app.js:259-275 | The fade fires after `timeoutMs` and marks the toast fading; the removal is scheduled `timeoutMs / 2` later. When it fires, the container is empty and hidden, toasting is false, no toast timer is pending, and the other regions are unchanged. |
| `Behaviour.ForcedToastPreempts` | src/app.js:221-244 | A forced toast, issued before or after the first toast's fade, leaves only its own fade pending. The first toast's remaining steps never run. |
| `Behaviour.ToastingBlocksEveryRegion` | src/app.js:221 | While a toast is up, a non-forced toast for any region changes nothing. |
| `Behaviour.ForcedToastElsewhereStrandsFirst` | src/app.js:240-264 | A forced toast in another region cancels the first toast's timers but not its container. After any events without a toast for the first region, the first toast is still shown. |
| `Behaviour.ApplyKeepsToastSurface` | src/app.js:1123-1134 | An event other than a toast for a region leaves that region's container alone, when no toast timer points at it. |
| `Behaviour.ToastSurfaceUntouched` | src/app.js:1123-1134 | A container no toast timer points at changes only through a new toast for its region, over any sequence of events. |
| `Behaviour.ShowThenHideMenu` | src/app.js:326-416 | A hide issued while a show is pending cancels the show. The show's promise is superseded and never resolves; the hide's promise resolves when it fires, leaving the container hidden and the element hidden without `active`. |
| `Behaviour.MenuOnlyInMenusContainer` | src/app.js:299 | A menu only the menus container holds can be shown but not hidden; it is never reported shown, and toggling it returns `undefined`. |
| `Behaviour.ShowMenuKeepsIsShown` | src/app.js:530-539 | Showing a menu, and its timer firing, never change what `isMenuShownById` reports. |
| `Behaviour.ToggleShowsAgain` | src/app.js:432-444 | When the dialog element is hidden, toggling shows the menu. After the show fires, toggling shows it again. |
| `Behaviour.DetachedTimersOnlyGrow` | src/app.js:680 | Only a firing removes a pending backdrop or aside timer; every other event keeps them all. |
| `Behaviour.PendingBackdropHideWins` | src/app.js:655-687 | Shown again during a pending hide, the backdrop is visible but keeps `fade-out`, and the pending hide still hides it. |
| `Behaviour.ToggleBackdropTwice` | src/app.js:693-718 | Toggling a hidden backdrop twice and letting the hide fire leaves it hidden again. |
| `Behaviour.PendingAsideCloseWins` | src/app.js:595-627 | Reopened during a pending close, the aside is closed and hidden when the close fires. The close's promise resolves; the reopen's is still pending. |
| `App.MaxaboomApp.constructor` | src/app.js:156 | The app starts in the initial state and satisfies the invariant. |
| `App.MaxaboomApp.ClearToast` | src/app.js:1123-1134 | Leaves the state `Overlay.ClearToast` describes. |
| `App.MaxaboomApp.FadeToastOut` | src/app.js:1145-1160 | Stores the fade timer for the region and changes nothing else. |
| `App.MaxaboomApp.ShowToast` | src/app.js:219-279 | Leaves the state `Overlay.ShowToast` describes and keeps the invariant. |
| `App.MaxaboomApp.FireToastOutTimer` | src/app.js:1149-1157 | Leaves the state `Overlay.FireToastOutTimer` describes and keeps the invariant. |
| `App.MaxaboomApp.FireToastTimer` | src/app.js:262-275 | Leaves the state `Overlay.FireToastTimer` describes and keeps the invariant. |
| `App.MaxaboomApp.ShowBackdropOf` | src/app.js:655-660 | Leaves the state `Overlay.ShowBackdropOf` describes and keeps the invariant. |
| `App.MaxaboomApp.HideBackdropOf` | src/app.js:669-687 | Leaves the state `Overlay.HideBackdropOf` describes and keeps the invariant. |
| `App.MaxaboomApp.ToggleBackdropOf` | src/app.js:693-718 | Leaves the state `Overlay.ToggleBackdropOf` describes and keeps the invariant. |
| `App.MaxaboomApp.ToggleBackdrop` | src/app.js:693-698 | Toggles the full-page backdrop. |
| `App.MaxaboomApp.ToggleMainBackdrop` | src/app.js:703-708 | Toggles the main backdrop. |
| `App.MaxaboomApp.ToggleAsideBackdrop` | src/app.js:713-718 | Toggles the aside backdrop. |
| `App.MaxaboomApp.GetMenuById` | src/app.js:847-849 | Finds an element exactly when the id is in the current dialogs container. |
| `App.MaxaboomApp.IsMenuShownById` | src/app.js:530-539 | Agrees with `Overlay.IsMenuShownById`. True only for an id in the dialogs container. |
| `App.MaxaboomApp.CancelMenuTimers` | src/app.js:326-327 | Empties both menu timer slots. |
| `App.MaxaboomApp.ShowMenuById` | src/app.js:292-354 | Returns the promise and leaves the state that `Overlay.ShowMenuById` describes. |
| `App.MaxaboomApp.HideMenuById` | src/app.js:367-420 | Returns the promise and leaves the state that `Overlay.HideMenuById` describes. |
| `App.MaxaboomApp.ToggleMenuById` | src/app.js:432-444 | Returns the result and leaves the state that `Overlay.ToggleMenuById` describes. |
| `App.MaxaboomApp.FireShowMenuTimer` | src/app.js:330-347 | Leaves the state `Overlay.FireShowMenuTimer` describes. |
| `App.MaxaboomApp.FireHideMenuTimer` | src/app.js:398-416 | Leaves the state `Overlay.FireHideMenuTimer` describes. |
| `App.MaxaboomApp.OpenAside` | src/app.js:586-601 | Returns the promise and leaves the state that `Overlay.OpenAside` describes. |
| `App.MaxaboomApp.CloseAside` | src/app.js:611-631 | Returns the promise and leaves the state that `Overlay.CloseAside` describes. |
| `App.MaxaboomApp.FireDetachedTimer` | src/app.js:680-684 | Leaves the state `Overlay.FireDetachedTimer` describes. |

## Left out

- `openDialog` and its dialog template (`src/app.js:462-520`, `1351-1390`) are not modelled,
  because they cannot run as written:
  - the template at line 1373 puts a `return` inside a template expression;
  - `getDialogById` (line 479) is not defined;
  - the rejection at line 482 does not return;
  - the timer is stored in `_showDialogTmer` (line 508), so the `clearTimeout` at line 505
    never cancels it;
  - a default-id dialog is appended on every call (line 475).

  The dialogs containers are modelled only as the place `getMenuById` searches.
- The media-query watcher and its narrow/wide handlers (`src/app.js:1168-1192`) are left out.
  The watcher lives in `helpers/mediawatcher.js`, which is not part of this model.
- The side bar and nav bar toggles are left out.
- `_appLayoutScrollHandler` (`src/app.js:1300-1333`) is left out: it depends on layout geometry.
- Constructor wiring, I18n and event listeners (`src/app.js:167-190`, `1199-1259`) are left out.
- `setTitle`, `getTitle`, `setCurrentPage` and `getCurrentPage` are left out: they only write
  `document.title` and a field.
- `getActiveMenuId` and its main and aside variants are left out: they depend on document order
  of the `active` attribute.
- CSS animation classes that nothing reads are not modelled: `fade-in`, `pop-in`,
  `slide-from-down`, `slide-down`, and the menus container's `fade-in`/`fade-out`.
- `console.log` output, `innerHTML` and `insertAdjacentHTML` markup are not modelled. A toast is
  modelled by its type, badge visibility, text and fade state.
- Negative and fractional durations are not modelled: durations are whole milliseconds. A toast
  removal delay is `timeoutMs / 2`, rounded down.
- Timer firing order by due time is not modelled: any pending timer may fire next. So every
  property here holds whatever the delays are.
- `Templates.TemplateValue` and `Overlay.ToastParams`: values are strings or arrays of strings.
  This leaves out `String.raw`'s conversion of other values to text. For example, a missing
  message renders as "undefined". It also leaves out how `join` writes `null`/`undefined` items
  (as '') and nested arrays (comma-separated).
- Every surface is assumed to exist: a region always has its toasts container, menus and dialogs
  containers and backdrop. On a page where one is missing the JavaScript throws. On the shop page
  the toasts container has id `toast` rather than `toasts` (`views/shop-page.php:252`), so the
  lookup at `src/app.js:889` yields null and `_clearToast` fails at `src/app.js:1129`. That page
  also has no main or aside backdrop, so `src/app.js:1203` fails.
- `Overlay.NodeById`, `Overlay.MenusContainerQuery`, `Overlay.GetMenuById`,
  `App.MaxaboomApp.GetMenuById`, `Overlay.ShowMenuById`, `Overlay.HideMenuById`,
  `Overlay.ToggleMenuById` and `Overlay.IsMenuShownById` model the `[data-id="…"]` selector
  (`src/app.js:299`, `848`) as an exact lookup by id. Ids are assumed to need no CSS escaping
  (no `"`, `\` or line break) and to be unique within a container. An id with `"` makes the
  selector invalid, so `querySelector` throws: `showMenuById` then rejects with a SyntaxError,
  and `toggleMenuById` and `isMenuShownById` throw. A `\` is read as a CSS escape. Among
  duplicate ids the first in document order would be found. The "rejects exactly when" wording
  of the show and hide rows holds only for such ids.
- The menus and dialogs containers are taken to be distinct elements. Aliasing between them is
  not modelled.
- `src/scripts/product-page.js`, `models/*.php`, `controllers/*.php` and `views/*.php` are left
  out. They hold network calls, persistence and static markup, with no overlay state.

=== FILE: app.dfy ===
/**
 * `MaxaboomApp`: the app object whose methods update its own fields (the `#toasting` flag and
 * the timer fields) and the visibility flags of the page surfaces in place. Each method is
 * proved to leave the state that the matching function of module Overlay describes, and to
 * keep the invariant of module Safety. Timer callbacks run through the `Fire…` methods, which
 * the event loop calls when a pending timer's delay has passed.
 */
module App {
  import opened Wrappers
  import opened Parts
  import opened Templates
  import opened Overlay
  import Safety

  class MaxaboomApp {
    var toasting: bool
    var toastSurfaces: PerRegion<ToastSurface>
    var menuContainers: PerRegion<Container>
    var dialogContainers: PerRegion<Container>
    var backdrops: PerRegion<Backdrop>
    var aside: AsideElement
    var toastOutTimer: Option<ToastTimeout>
    var toastTimer: Option<ToastTimeout>
    var showMenuTimer: Option<MenuTimeout>
    var hideMenuTimer: Option<MenuTimeout>
    var detachedTimers: seq<DetachedTimeout>
    var resolved: set<nat>
    var nextPromise: nat
    ghost var superseded: set<nat>

    /** The abstract state: the fields, as one value. */
    ghost function State(): AppState
      reads this
    {
      AppState(toasting, toastSurfaces, menuContainers, dialogContainers, backdrops, aside,
        toastOutTimer, toastTimer, showMenuTimer, hideMenuTimer, detachedTimers, resolved,
        superseded, nextPromise)
    }

    ghost predicate Valid()
      reads this
    {
      Safety.Inv(State())
    }

    /** The app on a freshly loaded page whose menus and dialogs containers hold the given elements. */
    constructor (menus: PerRegion<Container>, dialogs: PerRegion<Container>)
      ensures Valid() && State() == Initial(menus, dialogs)
    {
      var noToasts := ToastSurface(true, []);
      var hiddenBackdrop := Backdrop(true, false);
      toasting := false;
      toastSurfaces := PerRegion(noToasts, noToasts, noToasts);
      menuContainers := menus;
      dialogContainers := dialogs;
      backdrops := PerRegion(hiddenBackdrop, hiddenBackdrop, hiddenBackdrop);
      aside := AsideElement(true, false, false);
      toastOutTimer, toastTimer := None, None;
      showMenuTimer, hideMenuTimer := None, None;
      detachedTimers := [];
      resolved, superseded := {}, {};
      nextPromise := 0;
      new;
      Safety.InitialInv(menus, dialogs);
    }

    // -------------------------------------------------------------------------
    // Toasts
    // -------------------------------------------------------------------------

    /** `_clearToast(toastsEl)`. */
    method ClearToast(r: Region)
      modifies this
      ensures State() == Overlay.ClearToast(old(State()), r)
    {
      toastTimer := None;
      toastOutTimer := None;
      toastSurfaces := toastSurfaces.Set(r, ToastSurface(true, []));
    }

    /** `_fadeToastOut(toastEl, timeout)`: stores the fade timer in `_toastOutTimer`. */
    method FadeToastOut(r: Region, timeoutMs: nat)
      modifies this
      ensures State() == old(State()).(toastOutTimer := Some(ToastTimeout(timeoutMs, r)))
    {
      toastOutTimer := Some(ToastTimeout(timeoutMs, r));
    }

    /** `showToast(params, timeout = DEFAULT_TOAST_TIMEOUT, force = false)`. */
    method ShowToast(params: ToastParams, timeoutMs: nat := DEFAULT_TOAST_TIMEOUT_MS, force: bool := false)
      requires Valid()
      modifies this
      ensures Valid()
      ensures State() == Overlay.ShowToast(old(State()), params, timeoutMs, force)
    {
      ghost var s0 := State();
      Safety.ShowToastInv(s0, params, timeoutMs, force);
      if toasting && !force {
        return;
      }
      var kind := params.kind.GetOr(DEFAULT_TOAST);
      var r := ResolvePart(params.part.GetOr(DEFAULT_PART));
      ClearToast(r);
      toasting := true;
      var toast := ToastOf(kind, params.message);
      var surface := toastSurfaces.Get(r);
      surface := surface.(toasts := surface.toasts + [toast]);
      surface := surface.(hidden := false);
      toastSurfaces := toastSurfaces.Set(r, surface);
      FadeToastOut(r, timeoutMs);
    }

    /** The `_toastOutTimer` callback, with the `.then` that schedules the removal. */
    method FireToastOutTimer()
      requires Valid()
      modifies this
      ensures Valid()
      ensures State() == Overlay.FireToastOutTimer(old(State()))
    {
      Safety.FireToastOutTimerInv(State());
      if toastOutTimer.Some? {
        var timer := toastOutTimer.value;
        toastOutTimer := None;
        toastSurfaces := toastSurfaces.Set(timer.region, FadeFirst(toastSurfaces.Get(timer.region)));
        toastTimer := Some(ToastTimeout(timer.delayMs / 2, timer.region));
      }
    }

    /** The `_toastTimer` callback. */
    method FireToastTimer()
      requires Valid()
      modifies this
      ensures Valid()
      ensures State() == Overlay.FireToastTimer(old(State()))
    {
      Safety.FireToastTimerInv(State());
      if toastTimer.Some? {
        ClearToast(toastTimer.value.region);
        toasting := false;
      }
    }

    // -------------------------------------------------------------------------
    // Backdrops
    // -------------------------------------------------------------------------

    /** `showBackdropOf(part = DEFAULT_PART)`. */
    method ShowBackdropOf(part: string := DEFAULT_PART)
      requires Valid()
      modifies this
      ensures Valid()
      ensures State() == Overlay.ShowBackdropOf(old(State()), part)
    {
      Safety.ShowBackdropInv(State(), part);
      var r := ResolvePart(part);
      backdrops := backdrops.Set(r, backdrops.Get(r).(hidden := false));
    }

    /** `hideBackdropOf(part = DEFAULT_PART, duration = 300)`. */
    method HideBackdropOf(part: string := DEFAULT_PART, durationMs: nat := DEFAULT_BACKDROP_HIDE_MS)
      requires Valid()
      modifies this
      ensures Valid()
      ensures State() == Overlay.HideBackdropOf(old(State()), part, durationMs)
    {
      Safety.HideBackdropInv(State(), part, durationMs);
      var r := ResolvePart(part);
      backdrops := backdrops.Set(r, backdrops.Get(r).(fadingOut := true));
      detachedTimers := detachedTimers + [HideBackdropTimeout(durationMs, r)];
    }

    /** The common body of the three backdrop toggles. */
    method ToggleBackdropOf(part: string)
      requires Valid()
      modifies this
      ensures Valid()
      ensures State() == Overlay.ToggleBackdropOf(old(State()), part)
    {
      if backdrops.Get(ResolvePart(part)).hidden {
        ShowBackdropOf(part);
      } else {
        HideBackdropOf(part);
      }
    }

    /** `toggleBackdrop()`: the full-page backdrop. */
    method ToggleBackdrop()
      requires Valid()
      modifies this
      ensures Valid()
      ensures State() == Overlay.ToggleBackdropOf(old(State()), DEFAULT_PART)
    {
      ToggleBackdropOf(DEFAULT_PART);
    }

    /** `toggleMainBackdrop()`. */
    method ToggleMainBackdrop()
      requires Valid()
      modifies this
      ensures Valid()
      ensures State() == Overlay.ToggleBackdropOf(old(State()), MAIN_PART)
    {
      ToggleBackdropOf(MAIN_PART);
    }

    /** `toggleAsideBackdrop()`. */
    method ToggleAsideBackdrop()
      requires Valid()
      modifies this
      ensures Valid()
      ensures State() == Overlay.ToggleBackdropOf(old(State()), ASIDE_PART)
    {
      ToggleBackdropOf(ASIDE_PART);
    }

    // -------------------------------------------------------------------------
    // Menus
    // -------------------------------------------------------------------------

    /** `getCurrentMenusElement(part = DEFAULT_PART)`. */
    function GetCurrentMenusElement(part: string := DEFAULT_PART): (c: Container)
      reads this
      ensures part == MAIN_PART ==> c == menuContainers.main
      ensures part == ASIDE_PART ==> c == menuContainers.aside
      ensures part != MAIN_PART && part != ASIDE_PART ==> c == menuContainers.full
    {
      menuContainers.Get(ResolvePart(part))
    }

    /** `getCurrentDialogsElement(part = DEFAULT_PART)`. */
    function GetCurrentDialogsElement(part: string := DEFAULT_PART): (c: Container)
      reads this
      ensures part == MAIN_PART ==> c == dialogContainers.main
      ensures part == ASIDE_PART ==> c == dialogContainers.aside
      ensures part != MAIN_PART && part != ASIDE_PART ==> c == dialogContainers.full
    {
      dialogContainers.Get(ResolvePart(part))
    }

    /** `getMenuById(menuId, part)`, the definition that wins: a `dialog` of the dialogs container. */
    function GetMenuById(menuId: string, part: string := DEFAULT_PART): (n: Option<Node>)
      reads this
      ensures n == Overlay.GetMenuById(State(), menuId, part)
      ensures n.Some? <==> menuId in GetCurrentDialogsElement(part).nodes
    {
      NodeById(GetCurrentDialogsElement(part), menuId)
    }

    /** `isMenuShownById(menuId, part = DEFAULT_PART)`. */
    function IsMenuShownById(menuId: string, part: string := DEFAULT_PART): (shown: bool)
      reads this
      ensures shown == Overlay.IsMenuShownById(State(), menuId, part)
      ensures shown ==> menuId in GetCurrentDialogsElement(part).nodes
    {
      match GetMenuById(menuId, part)
      case None => false
      case Some(node) => !node.hidden
    }

    /** The two `clearTimeout` calls on the menu timer fields. */
    method CancelMenuTimers()
      modifies this
      ensures State() == Overlay.CancelMenuTimers(old(State()))
    {
      superseded := superseded + MenuSlotPromises(State());
      showMenuTimer := None;
      hideMenuTimer := None;
    }

    /** `showMenuById(menuId, duration = 0.5, part = DEFAULT_PART)`. */
    method ShowMenuById(menuId: string, durationMs: nat := DEFAULT_MENU_MS, part: string := DEFAULT_PART)
      returns (p: Promise)
      requires Valid()
      modifies this
      ensures Valid()
      ensures (State(), p) == Overlay.ShowMenuById(old(State()), menuId, durationMs, part)
    {
      Safety.ShowMenuInv(State(), menuId, durationMs, part);
      var r := ResolvePart(part);
      var menus := GetCurrentMenusElement(part);
      var found := NodeById(menus, menuId);
      if found.None? {
        return Rejected(MenuNotFound(menuId));
      }
      ShowBackdropOf(part);
      menus := menus.(nodes := menus.nodes[menuId := found.value.(hidden := false)]);
      menus := menus.(hidden := false);
      menuContainers := menuContainers.Set(r, menus);
      CancelMenuTimers();
      showMenuTimer := Some(MenuTimeout(durationMs, r, menuId, nextPromise));
      p := Awaiting(nextPromise);
      nextPromise := nextPromise + 1;
    }

    /** `hideMenuById(menuId, duration = 0.5, part = DEFAULT_PART)`. */
    method HideMenuById(menuId: string, durationMs: nat := DEFAULT_MENU_MS, part: string := DEFAULT_PART)
      returns (p: Promise)
      requires Valid()
      modifies this
      ensures Valid()
      ensures (State(), p) == Overlay.HideMenuById(old(State()), menuId, durationMs, part)
    {
      Safety.HideMenuInv(State(), menuId, durationMs, part);
      var r := ResolvePart(part);
      if GetMenuById(menuId, part).None? {
        return Rejected(MenuNotFound(menuId));
      }
      HideBackdropOf(part);
      CancelMenuTimers();
      hideMenuTimer := Some(MenuTimeout(durationMs, r, menuId, nextPromise));
      p := Awaiting(nextPromise);
      nextPromise := nextPromise + 1;
    }

    /** `toggleMenuById(menuId, duration = 0.5, part = DEFAULT_PART)`: None stands for `undefined`. */
    method ToggleMenuById(menuId: string, durationMs: nat := DEFAULT_MENU_MS, part: string := DEFAULT_PART)
      returns (res: Option<Promise>)
      requires Valid()
      modifies this
      ensures Valid()
      ensures (State(), res) == Overlay.ToggleMenuById(old(State()), menuId, durationMs, part)
    {
      if GetMenuById(menuId, part).None? {
        return None;
      }
      var p;
      if IsMenuShownById(menuId, part) {
        p := HideMenuById(menuId, durationMs, part);
      } else {
        p := ShowMenuById(menuId, durationMs, part);
      }
      res := Some(p);
    }

    /** The `_showMenuTimer` callback. */
    method FireShowMenuTimer()
      requires Valid()
      modifies this
      ensures Valid()
      ensures State() == Overlay.FireShowMenuTimer(old(State()))
    {
      Safety.FireShowMenuInv(State());
      if showMenuTimer.Some? {
        var m := showMenuTimer.value;
        showMenuTimer := None;
        var menus := menuContainers.Get(m.region);
        if m.menuId in menus.nodes {
          menus := menus.(nodes := menus.nodes[m.menuId := menus.nodes[m.menuId].(active := true)]);
        }
        menuContainers := menuContainers.Set(m.region, menus);
        resolved := resolved + {m.promise};
      }
    }

    /** The `_hideMenuTimer` callback. */
    method FireHideMenuTimer()
      requires Valid()
      modifies this
      ensures Valid()
      ensures State() == Overlay.FireHideMenuTimer(old(State()))
    {
      Safety.FireHideMenuInv(State());
      if hideMenuTimer.Some? {
        var m := hideMenuTimer.value;
        hideMenuTimer := None;
        var dialogs := dialogContainers.Get(m.region);
        if m.menuId in dialogs.nodes {
          dialogs := dialogs.(nodes := dialogs.nodes[m.menuId := Node(true, false)]);
        }
        dialogContainers := dialogContainers.Set(m.region, dialogs);
        var menus := menuContainers.Get(m.region);
        menuContainers := menuContainers.Set(m.region, menus.(hidden := true));
        resolved := resolved + {m.promise};
      }
    }

    // -------------------------------------------------------------------------
    // The aside
    // -------------------------------------------------------------------------

    /** `openAside(duration = 300)`: returns the promise the open timer resolves. */
    method OpenAside(durationMs: nat := DEFAULT_ASIDE_MS) returns (p: nat)
      requires Valid()
      modifies this
      ensures Valid()
      ensures (State(), p) == Overlay.OpenAside(old(State()), durationMs)
    {
      Safety.OpenAsideInv(State(), durationMs);
      aside := aside.(hidden := false);
      aside := aside.(openedAttr := true);
      p := nextPromise;
      detachedTimers := detachedTimers + [OpenAsideTimeout(durationMs, p)];
      nextPromise := nextPromise + 1;
    }

    /** `closeAside(duration = 300)`: returns the promise the close timer resolves. */
    method CloseAside(durationMs: nat := DEFAULT_ASIDE_MS) returns (p: nat)
      requires Valid()
      modifies this
      ensures Valid()
      ensures (State(), p) == Overlay.CloseAside(old(State()), durationMs)
    {
      Safety.CloseAsideInv(State(), durationMs);
      aside := aside.(closingAttr := true);
      p := nextPromise;
      detachedTimers := detachedTimers + [CloseAsideTimeout(durationMs, p)];
      nextPromise := nextPromise + 1;
    }

    /** Pending timer `i` of the fields nothing clears fires. */
    method FireDetachedTimer(i: nat)
      requires Valid() && i < |detachedTimers|
      modifies this
      ensures Valid()
      ensures State() == Overlay.FireDetachedTimer(old(State()), i)
    {
      Safety.FireDetachedInv(State(), i);
      var timer := detachedTimers[i];
      detachedTimers := detachedTimers[..i] + detachedTimers[i + 1..];
      match timer {
        case HideBackdropTimeout(_, r) =>
          backdrops := backdrops.Set(r, Backdrop(true, false));
        case OpenAsideTimeout(_, p) =>
          resolved := resolved + {p};
        case CloseAsideTimeout(_, p) =>
          aside := aside.(openedAttr := false).(closingAttr := false);
          aside := aside.(hidden := true);
          resolved := resolved + {p};
      }
    }
  }
}

=== FILE: behaviour.dfy ===
/**
 * What sequences of calls and timer firings do: the toast lifecycle and its preemption,
 * last-call-wins for menus, the two lookups the menu methods use, and the timers that are
 * never cancelled (backdrop hide, aside close).
 */
module Behaviour {
  import opened Wrappers
  import opened Parts
  import opened Templates
  import opened Overlay
  import opened Safety

  // ---------------------------------------------------------------------------
  // Toasts
  // ---------------------------------------------------------------------------

  /** A toast with neither `type` nor `part` is a NORMAL toast, without emoji, on the full page. */
  lemma ShowToastDefaults(s: AppState, message: string, timeoutMs: nat, force: bool)
    requires ToastAccepted(s, force)
    ensures
      var t := ShowToast(s, ToastParams(message, None, None), timeoutMs, force);
      && t.toastSurfaces.Get(Full) == ToastSurface(false, [Toast(NORMAL_TOAST, true, message, false)])
      && t.toastSurfaces.Get(Main) == s.toastSurfaces.Get(Main)
      && t.toastSurfaces.Get(Aside) == s.toastSurfaces.Get(Aside)
  {
    DefaultPartIsFull();
  }

  /**
   * An accepted toast runs its course: the fade fires after `timeoutMs` and marks the toast
   * fading, which schedules the removal `timeoutMs / 2` later; the removal leaves the
   * container empty and hidden, `toasting` down and no toast timer pending.
   */
  lemma ToastLifecycle(s: AppState, params: ToastParams, timeoutMs: nat, force: bool)
    requires Inv(s) && ToastAccepted(s, force)
    ensures
      var r := ToastRegion(params);
      var shown := ShowToast(s, params, timeoutMs, force);
      var faded := FireToastOutTimer(shown);
      var removed := FireToastTimer(faded);
      && shown.toastOutTimer == Some(ToastTimeout(timeoutMs, r)) && shown.toastTimer.None?
      && faded.toastOutTimer.None? && faded.toastTimer == Some(ToastTimeout(timeoutMs / 2, r))
      && faded.toastSurfaces.Get(r) == ToastSurface(false, [ToastFor(params).(fadingOut := true)])
      && faded.toasting
      && removed.toastSurfaces.Get(r) == ToastSurface(true, [])
      && !removed.toasting && removed.toastOutTimer.None? && removed.toastTimer.None?
      && (forall q :: q != r ==> removed.toastSurfaces.Get(q) == s.toastSurfaces.Get(q))
  {
    var r := ToastRegion(params);
    var shown := ShowToast(s, params, timeoutMs, force);
    var faded := FireToastOutTimer(shown);
    var removed := FireToastTimer(faded);
    forall q | q != r ensures removed.toastSurfaces.Get(q) == s.toastSurfaces.Get(q) {
      assert faded.toastSurfaces.Get(q) == shown.toastSurfaces.Get(q);
    }
  }

  /**
   * A forced toast preempts the current one, before or after its fade has fired: the only
   * toast timer left is the new toast's fade, so the earlier toast's remaining steps never run.
   */
  lemma ForcedToastPreempts(s: AppState, a: ToastParams, ta: nat, fa: bool, fadeFired: bool,
                            b: ToastParams, tb: nat)
    requires Inv(s) && ToastAccepted(s, fa)
    ensures
      var first := ShowToast(s, a, ta, fa);
      var before := if fadeFired then FireToastOutTimer(first) else first;
      var second := ShowToast(before, b, tb, true);
      && second.toasting
      && second.toastOutTimer == Some(ToastTimeout(tb, ToastRegion(b)))
      && second.toastTimer.None?
      && second.toastSurfaces.Get(ToastRegion(b)) == ToastSurface(false, [ToastFor(b)])
  {
  }

  /** While a toast is up, a non-forced toast for ANY region is dropped: the flag is app-wide. */
  lemma ToastingBlocksEveryRegion(s: AppState, a: ToastParams, ta: nat, fa: bool, b: ToastParams, tb: nat)
    requires Inv(s) && ToastAccepted(s, fa)
    ensures
      var first := ShowToast(s, a, ta, fa);
      ShowToast(first, b, tb, false) == first
  {
  }

  /** The toast surfaces that no pending toast timer will touch. */
  predicate NoToastTimerAt(s: AppState, r: Region) {
    && (s.toastOutTimer.Some? ==> s.toastOutTimer.value.region != r)
    && (s.toastTimer.Some? ==> s.toastTimer.value.region != r)
  }

  /** Events that do not ask for a toast in region `r`. */
  predicate NoToastFor(events: seq<Event>, r: Region) {
    forall k :: 0 <= k < |events| ==> !(events[k].ShowToastEvent? && ToastRegion(events[k].params) == r)
  }

  /**
   * Toast timers are app-wide, so a forced toast in another region cancels the first toast's
   * timers without clearing its container: the first toast stays on screen, and nothing but a
   * new toast for its region ever removes it.
   */
  lemma {:induction false} ForcedToastElsewhereStrandsFirst(
    s: AppState, a: ToastParams, ta: nat, fa: bool, b: ToastParams, tb: nat, events: seq<Event>)
    requires Inv(s) && ToastAccepted(s, fa) && ToastRegion(a) != ToastRegion(b)
    requires NoToastFor(events, ToastRegion(a))
    ensures
      var second := ShowToast(ShowToast(s, a, ta, fa), b, tb, true);
      Run(second, events).toastSurfaces.Get(ToastRegion(a)) == ToastSurface(false, [ToastFor(a)])
  {
    var ra := ToastRegion(a);
    var first := ShowToast(s, a, ta, fa);
    var second := ShowToast(first, b, tb, true);
    assert second.toastSurfaces.Get(ra) == first.toastSurfaces.Get(ra);
    ToastSurfaceUntouched(second, events, ra);
  }

  /** One event other than a toast for `r` leaves region `r`'s toasts container and its timer freedom alone. */
  lemma ApplyKeepsToastSurface(s: AppState, e: Event, r: Region)
    requires NoToastTimerAt(s, r) && !(e.ShowToastEvent? && ToastRegion(e.params) == r)
    ensures NoToastTimerAt(Apply(s, e), r) && Apply(s, e).toastSurfaces.Get(r) == s.toastSurfaces.Get(r)
  {
    match e {
      case ShowToastEvent(params, timeoutMs, force) =>
      case FireToastOutEvent =>
      case FireToastEvent =>
      case ShowBackdropEvent(part) =>
      case HideBackdropEvent(part, d) =>
      case ToggleBackdropEvent(part) =>
      case ShowMenuEvent(id, d, part) =>
      case HideMenuEvent(id, d, part) =>
      case ToggleMenuEvent(id, d, part) =>
      case FireShowMenuEvent =>
      case FireHideMenuEvent =>
      case OpenAsideEvent(d) =>
      case CloseAsideEvent(d) =>
      case FireDetachedEvent(i) =>
    }
  }

  /** A toast container that no pending timer points at changes only through a new toast for it. */
  lemma {:induction false} ToastSurfaceUntouched(s: AppState, events: seq<Event>, r: Region)
    requires NoToastTimerAt(s, r) && NoToastFor(events, r)
    ensures Run(s, events).toastSurfaces.Get(r) == s.toastSurfaces.Get(r)
    decreases |events|
  {
    if |events| > 0 {
      ApplyKeepsToastSurface(s, events[0], r);
      assert NoToastFor(events[1..], r) by {
        forall k | 0 <= k < |events[1..]|
          ensures !(events[1..][k].ShowToastEvent? && ToastRegion(events[1..][k].params) == r)
        {
          assert events[1..][k] == events[k + 1];
        }
      }
      ToastSurfaceUntouched(Apply(s, events[0]), events[1..], r);
    }
  }

  // ---------------------------------------------------------------------------
  // Menus
  // ---------------------------------------------------------------------------

  /**
   * Last call wins: a `hideMenuById` issued while a `showMenuById` timer is pending cancels
   * it; the show's promise is superseded and stays unresolved whatever follows, and when the
   * hide fires the menus container is hidden and the hide's promise resolves.
   */
  lemma ShowThenHideMenu(s: AppState, menuId: string, showMs: nat, hideMs: nat, part: string, events: seq<Event>)
    requires Inv(s)
    requires MenusContainerQuery(s, menuId, part).Some? && GetMenuById(s, menuId, part).Some?
    ensures
      var (shown, p) := ShowMenuById(s, menuId, showMs, part);
      var (hidden, q) := HideMenuById(shown, menuId, hideMs, part);
      var settled := FireHideMenuTimer(hidden);
      && p.Awaiting? && q.Awaiting? && p.id != q.id
      && hidden.showMenuTimer.None?
      && hidden.hideMenuTimer == Some(MenuTimeout(hideMs, ResolvePart(part), menuId, q.id))
      && p.id in hidden.superseded
      && p.id !in Run(hidden, events).resolved
      && q.id in settled.resolved
      && settled.menuContainers.Get(ResolvePart(part)).hidden
      && settled.dialogContainers.Get(ResolvePart(part)).nodes[menuId] == Node(true, false)
  {
    var (shown, p) := ShowMenuById(s, menuId, showMs, part);
    ShowMenuInv(s, menuId, showMs, part);
    var (hidden, q) := HideMenuById(shown, menuId, hideMs, part);
    HideMenuInv(shown, menuId, hideMs, part);
    SupersededNeverResolves(hidden, events, p.id);
  }

  /**
   * The two lookups differ: `showMenuById` searches the menus container, while
   * `hideMenuById`, `toggleMenuById` and `isMenuShownById` go through `getMenuById`, which
   * searches the dialogs container. A menu that only the menus container holds can be shown
   * but not hidden, is never reported as shown, and toggling it does nothing.
   */
  lemma MenuOnlyInMenusContainer(s: AppState, menuId: string, durationMs: nat, part: string)
    requires menuId in s.menuContainers.Get(ResolvePart(part)).nodes
    requires menuId !in s.dialogContainers.Get(ResolvePart(part)).nodes
    ensures ShowMenuById(s, menuId, durationMs, part).1.Awaiting?
    ensures HideMenuById(s, menuId, durationMs, part) == (s, Rejected(MenuNotFound(menuId)))
    ensures !IsMenuShownById(s, menuId, part)
    ensures ToggleMenuById(s, menuId, durationMs, part) == (s, None)
  {
  }

  /**
   * The split made visible: `getMenuById` reads only the dialogs containers, whatever the
   * menus containers hold, and `showMenuById`'s query reads only the menus containers.
   */
  lemma LookupsAreSplit(s: AppState, menus: PerRegion<Container>, dialogs: PerRegion<Container>,
                        menuId: string, part: string)
    ensures GetMenuById(s.(menuContainers := menus), menuId, part) == GetMenuById(s, menuId, part)
    ensures MenusContainerQuery(s.(dialogContainers := dialogs), menuId, part) == MenusContainerQuery(s, menuId, part)
  {
  }

  /**
   * `hideMenuById` closes the backdrop too: the hide it schedules, once fired, leaves the
   * region's backdrop hidden without `fade-out`.
   */
  lemma HideMenuClosesBackdrop(s: AppState, menuId: string, durationMs: nat, part: string)
    requires GetMenuById(s, menuId, part).Some?
    ensures
      var hidden := HideMenuById(s, menuId, durationMs, part).0;
      && |s.detachedTimers| < |hidden.detachedTimers|
      && hidden.detachedTimers[|s.detachedTimers|] == HideBackdropTimeout(DEFAULT_BACKDROP_HIDE_MS, ResolvePart(part))
      && FireDetachedTimer(hidden, |s.detachedTimers|).backdrops.Get(ResolvePart(part)) == Backdrop(true, false)
  {
  }

  /** Showing a menu, and its timer firing, never change what `isMenuShownById` reports. */
  lemma ShowMenuKeepsIsShown(s: AppState, menuId: string, durationMs: nat, part: string, otherId: string, otherPart: string)
    ensures
      var shown := ShowMenuById(s, menuId, durationMs, part).0;
      && IsMenuShownById(shown, otherId, otherPart) == IsMenuShownById(s, otherId, otherPart)
      && IsMenuShownById(FireShowMenuTimer(shown), otherId, otherPart) == IsMenuShownById(s, otherId, otherPart)
  {
  }

  /**
   * Consequently a toggle that shows a menu is followed, once its timer has fired, by a
   * toggle that shows it again: with a hidden dialog node of the same id, toggling never
   * reaches `hideMenuById`.
   */
  lemma ToggleShowsAgain(s: AppState, menuId: string, d1: nat, d2: nat, part: string)
    requires GetMenuById(s, menuId, part).Some? && GetMenuById(s, menuId, part).value.hidden
    ensures
      var first := ToggleMenuById(s, menuId, d1, part).0;
      var settled := FireShowMenuTimer(first);
      && first == ShowMenuById(s, menuId, d1, part).0
      && ToggleMenuById(settled, menuId, d2, part).0 == ShowMenuById(settled, menuId, d2, part).0
  {
    var first := ToggleMenuById(s, menuId, d1, part).0;
    ShowMenuKeepsIsShown(s, menuId, d1, part, menuId, part);
  }

  // ---------------------------------------------------------------------------
  // Timers nothing cancels
  // ---------------------------------------------------------------------------

  /** Only a firing takes a detached timer out: every other event keeps the pending ones in place. */
  lemma DetachedTimersOnlyGrow(s: AppState, e: Event)
    requires !e.FireDetachedEvent?
    ensures s.detachedTimers <= Apply(s, e).detachedTimers
  {
  }

  /**
   * A backdrop hide is never cancelled: shown again while its hide is pending, the backdrop
   * stays visible but keeps `fade-out`, and the pending hide still hides it.
   */
  lemma PendingBackdropHideWins(s: AppState, part: string, durationMs: nat)
    ensures
      var r := ResolvePart(part);
      var hiding := HideBackdropOf(s, part, durationMs);
      var shown := ShowBackdropOf(hiding, part);
      && shown.backdrops.Get(r) == Backdrop(false, true)
      && |s.detachedTimers| < |shown.detachedTimers|
      && FireDetachedTimer(shown, |s.detachedTimers|).backdrops.Get(r) == Backdrop(true, false)
  {
  }

  /** Toggling a hidden backdrop twice and letting the hide fire leaves it hidden as before. */
  lemma ToggleBackdropTwice(s: AppState, part: string)
    requires s.backdrops.Get(ResolvePart(part)).hidden
    ensures
      var r := ResolvePart(part);
      var once := ToggleBackdropOf(s, part);
      var twice := ToggleBackdropOf(once, part);
      && !once.backdrops.Get(r).hidden
      && twice.detachedTimers == s.detachedTimers + [HideBackdropTimeout(DEFAULT_BACKDROP_HIDE_MS, r)]
      && FireDetachedTimer(twice, |s.detachedTimers|).backdrops.Get(r) == Backdrop(true, false)
  {
  }

  /**
   * An aside close is never cancelled either: opened again while the close is pending, the
   * aside is closed and hidden when that close fires; the open's promise is still pending.
   */
  lemma PendingAsideCloseWins(s: AppState, closeMs: nat, openMs: nat)
    requires Inv(s)
    ensures
      var (closing, pc) := CloseAside(s, closeMs);
      var (reopened, po) := OpenAside(closing, openMs);
      var closed := FireDetachedTimer(reopened, |s.detachedTimers|);
      && reopened.aside.openedAttr && !reopened.aside.hidden
      && closed.aside == AsideElement(true, false, false)
      && pc in closed.resolved && po !in closed.resolved
      && closed.detachedTimers == s.detachedTimers + [OpenAsideTimeout(openMs, po)]
  {
    var (closing, pc) := CloseAside(s, closeMs);
    var (reopened, po) := OpenAside(closing, openMs);
    var closed := FireDetachedTimer(reopened, |s.detachedTimers|);
    assert Without(reopened.detachedTimers, |s.detachedTimers|) == s.detachedTimers + [OpenAsideTimeout(openMs, po)];
  }
}

=== FILE: overlay.dfy ===
/**
 * The overlay coordinator of `MaxaboomApp` as a value: the app's own fields (the `#toasting`
 * flag and the timer fields) together with the visibility flags of the page surfaces it
 * drives, and one step function per operation. The class in module App is proved against
 * these functions; the lemmas in modules Safety and Behaviour are stated over them.
 *
 * Timers: a `setTimeout` stored in a field that is later passed to `clearTimeout` is a
 * slot holding at most one pending callback; clearing empties the slot. Timers stored in
 * fields that are never cleared (`hideBackdropTimer`, `openAsideTimer`, `closeAsideTimer`)
 * are kept in `detachedTimers`: overwriting such a field does not cancel the earlier timer,
 * so every one of them is still pending until it fires.
 */
module Overlay {
  import opened Wrappers
  import opened Parts
  import opened Templates

  /** Default durations, in milliseconds. */
  const DEFAULT_TOAST_TIMEOUT_MS: nat := 5000
  const DEFAULT_MENU_MS: nat := 500
  const DEFAULT_BACKDROP_HIDE_MS: nat := 300
  const DEFAULT_ASIDE_MS: nat := 300

  /** A menu (or dialog) element: its `hidden` flag and its `active` attribute. */
  datatype Node = Node(hidden: bool, active: bool)

  /** A menus or dialogs container: its `hidden` flag and its elements by `data-id`. */
  datatype Container = Container(hidden: bool, nodes: map<string, Node>)

  /** A toasts container: its `hidden` flag and the toast elements inside it. */
  datatype ToastSurface = ToastSurface(hidden: bool, toasts: seq<Toast>)

  /** A backdrop: its `hidden` flag and whether it carries the `fade-out` class. */
  datatype Backdrop = Backdrop(hidden: bool, fadingOut: bool)

  /** The `<aside>` element: its `hidden` flag and its `opened` and `closing` attributes. */
  datatype AsideElement = AsideElement(hidden: bool, openedAttr: bool, closingAttr: bool)

  /** A pending toast callback (fade or removal) and the region whose toasts container it captured. */
  datatype ToastTimeout = ToastTimeout(delayMs: nat, region: Region)

  /** A pending menu callback: the element it captured and the promise it resolves. */
  datatype MenuTimeout = MenuTimeout(delayMs: nat, region: Region, menuId: string, promise: nat)

  /** A pending callback stored in a field that nothing clears. */
  datatype DetachedTimeout =
    | HideBackdropTimeout(delayMs: nat, region: Region)
    | OpenAsideTimeout(delayMs: nat, promise: nat)
    | CloseAsideTimeout(delayMs: nat, promise: nat)
  {
    predicate Promised() { !HideBackdropTimeout? }
  }

  /** A returned promise: rejected on the spot, or awaiting the timer that resolves promise `id`. */
  datatype Promise = Rejected(reason: string) | Awaiting(id: nat)

  /** The parameters of `showToast`: `type` and `part` may be left undefined. */
  datatype ToastParams = ToastParams(message: string, kind: Option<string>, part: Option<string>)

  /**
   * The coordinator's state. `resolved` holds the promises that have been resolved;
   * `superseded` the promises whose timer a later call cleared (bookkeeping only: the app
   * keeps no record of them, such a promise simply never settles).
   */
  datatype AppState = AppState(
    toasting: bool,
    toastSurfaces: PerRegion<ToastSurface>,
    menuContainers: PerRegion<Container>,
    dialogContainers: PerRegion<Container>,
    backdrops: PerRegion<Backdrop>,
    aside: AsideElement,
    toastOutTimer: Option<ToastTimeout>,
    toastTimer: Option<ToastTimeout>,
    showMenuTimer: Option<MenuTimeout>,
    hideMenuTimer: Option<MenuTimeout>,
    detachedTimers: seq<DetachedTimeout>,
    resolved: set<nat>,
    superseded: set<nat>,
    nextPromise: nat)

  /**
   * The state of a freshly loaded page: the toast containers hidden and empty, the backdrops
   * hidden without `fade-out`, the aside hidden and closed, the menus and dialogs containers as
   * the page provides them, and nothing pending.
   */
  function Initial(menus: PerRegion<Container>, dialogs: PerRegion<Container>): (s: AppState)
    ensures !s.toasting && s.detachedTimers == [] && s.resolved == {} && s.superseded == {}
    ensures s.toastOutTimer.None? && s.toastTimer.None? && s.showMenuTimer.None? && s.hideMenuTimer.None?
    ensures s.nextPromise == 0 && s.aside == AsideElement(true, false, false)
    ensures s.menuContainers == menus && s.dialogContainers == dialogs
    ensures forall r :: s.toastSurfaces.Get(r) == ToastSurface(true, [])
    ensures forall r :: s.backdrops.Get(r) == Backdrop(true, false)
  {
    var noToasts := ToastSurface(true, []);
    var hiddenBackdrop := Backdrop(true, false);
    AppState(false, PerRegion(noToasts, noToasts, noToasts), menus, dialogs,
      PerRegion(hiddenBackdrop, hiddenBackdrop, hiddenBackdrop), AsideElement(true, false, false),
      None, None, None, None, [], {}, {}, 0)
  }

  // ---------------------------------------------------------------------------
  // Toasts
  // ---------------------------------------------------------------------------

  /** `_clearToast`: clears both toast timers, then empties and hides the region's toasts container. */
  function ClearToast(s: AppState, r: Region): (t: AppState)
    ensures t.toastTimer.None? && t.toastOutTimer.None?
    ensures t.toastSurfaces.Get(r) == ToastSurface(true, [])
    ensures forall q :: q != r ==> t.toastSurfaces.Get(q) == s.toastSurfaces.Get(q)
    ensures t == s.(toastTimer := None, toastOutTimer := None, toastSurfaces := t.toastSurfaces)
  {
    s.(toastTimer := None, toastOutTimer := None,
       toastSurfaces := s.toastSurfaces.Set(r, ToastSurface(true, [])))
  }

  /** The region a toast goes to: `params.part ?? DEFAULT_PART`, resolved. */
  function ToastRegion(params: ToastParams): (r: Region)
    ensures r == Main <==> params.part == Some(MAIN_PART)
    ensures r == Aside <==> params.part == Some(ASIDE_PART)
    ensures params.part.None? ==> r == Full
  {
    ResolvePart(params.part.GetOr(DEFAULT_PART))
  }

  /** The toast element a call renders: `params.type ?? DEFAULT_TOAST` and the message. */
  function ToastFor(params: ToastParams): (t: Toast)
    ensures !t.fadingOut
    ensures params.kind.Some? ==> t.kind == params.kind.value
    ensures params.kind.None? ==> t == Toast(NORMAL_TOAST, true, params.message, false)
  {
    ToastOf(params.kind.GetOr(DEFAULT_TOAST), params.message)
  }

  /** Whether `showToast` goes ahead: not while a toast is up, unless forced. */
  predicate ToastAccepted(s: AppState, force: bool): (accepted: bool)
    ensures force ==> accepted
    ensures !s.toasting ==> accepted
    ensures s.toasting && !force ==> !accepted
  {
    !s.toasting || force
  }

  /**
   * `showToast(params, timeout, force)`: ignored while toasting unless forced; otherwise
   * clears the target region's toast (cancelling both toast timers, app-wide), raises the
   * single `toasting` flag, puts the one new toast in, unhides the container and schedules
   * the fade after `timeoutMs`.
   */
  function ShowToast(s: AppState, params: ToastParams, timeoutMs: nat, force: bool): (t: AppState)
    ensures !ToastAccepted(s, force) ==> t == s
    ensures ToastAccepted(s, force) ==>
      var r := ToastRegion(params);
      && t.toasting
      && t.toastOutTimer == Some(ToastTimeout(timeoutMs, r))
      && t.toastTimer.None?
      && t.toastSurfaces.Get(r) == ToastSurface(false, [ToastFor(params)])
      && (forall q :: q != r ==> t.toastSurfaces.Get(q) == s.toastSurfaces.Get(q))
      && t == s.(toasting := true, toastOutTimer := t.toastOutTimer, toastTimer := None,
                 toastSurfaces := t.toastSurfaces)
  {
    if !ToastAccepted(s, force) then s
    else
      var r := ToastRegion(params);
      var cleared := ClearToast(s, r);
      var surface := cleared.toastSurfaces.Get(r);
      var shown := surface.(toasts := surface.toasts + [ToastFor(params)]).(hidden := false);
      cleared.(toasting := true,
               toastSurfaces := cleared.toastSurfaces.Set(r, shown),
               toastOutTimer := Some(ToastTimeout(timeoutMs, r)))
  }

  /** Marks the first toast of a container as fading out. */
  function FadeFirst(surface: ToastSurface): (faded: ToastSurface)
    ensures faded.hidden == surface.hidden && |faded.toasts| == |surface.toasts|
    ensures |surface.toasts| > 0 ==>
      && faded.toasts[0].fadingOut
      && faded.toasts[0].kind == surface.toasts[0].kind
      && faded.toasts[0].text == surface.toasts[0].text
      && faded.toasts[0].emojiHidden == surface.toasts[0].emojiHidden
    ensures forall i :: 0 < i < |surface.toasts| ==> faded.toasts[i] == surface.toasts[i]
  {
    if |surface.toasts| == 0 then surface
    else surface.(toasts := surface.toasts[0 := surface.toasts[0].(fadingOut := true)])
  }

  /**
   * The `_toastOutTimer` callback and the `.then` that follows it: the toast gets the
   * `fade-out` class, and only now is the removal scheduled, half the timeout later.
   */
  function FireToastOutTimer(s: AppState): (t: AppState)
    ensures s.toastOutTimer.None? ==> t == s
    ensures s.toastOutTimer.Some? ==>
      var r := s.toastOutTimer.value.region;
      && t.toastOutTimer.None?
      && t.toastTimer == Some(ToastTimeout(s.toastOutTimer.value.delayMs / 2, r))
      && t.toastSurfaces.Get(r) == FadeFirst(s.toastSurfaces.Get(r))
      && (forall q :: q != r ==> t.toastSurfaces.Get(q) == s.toastSurfaces.Get(q))
      && t == s.(toastOutTimer := None, toastTimer := t.toastTimer, toastSurfaces := t.toastSurfaces)
  {
    match s.toastOutTimer
    case None => s
    case Some(timer) =>
      s.(toastOutTimer := None,
         toastSurfaces := s.toastSurfaces.Set(timer.region, FadeFirst(s.toastSurfaces.Get(timer.region))),
         toastTimer := Some(ToastTimeout(timer.delayMs / 2, timer.region)))
  }

  /**
   * The `_toastTimer` callback: clears the toast (both timers, the container emptied and
   * hidden) and lowers `toasting`.
   */
  function FireToastTimer(s: AppState): (t: AppState)
    ensures s.toastTimer.None? ==> t == s
    ensures s.toastTimer.Some? ==>
      && !t.toasting && t.toastTimer.None? && t.toastOutTimer.None?
      && t.toastSurfaces.Get(s.toastTimer.value.region) == ToastSurface(true, [])
      && (forall q :: q != s.toastTimer.value.region ==> t.toastSurfaces.Get(q) == s.toastSurfaces.Get(q))
      && t == s.(toasting := false, toastTimer := None, toastOutTimer := None, toastSurfaces := t.toastSurfaces)
  {
    match s.toastTimer
    case None => s
    case Some(timer) => ClearToast(s, timer.region).(toasting := false)
  }

  // ---------------------------------------------------------------------------
  // Backdrops
  // ---------------------------------------------------------------------------

  /** `showBackdropOf(part)`: unhides the region's backdrop; its `fade-out` class stays as it was. */
  function ShowBackdropOf(s: AppState, part: string): (t: AppState)
    ensures t.backdrops.Get(ResolvePart(part)) == s.backdrops.Get(ResolvePart(part)).(hidden := false)
    ensures forall q :: q != ResolvePart(part) ==> t.backdrops.Get(q) == s.backdrops.Get(q)
    ensures t == s.(backdrops := t.backdrops)
  {
    var r := ResolvePart(part);
    s.(backdrops := s.backdrops.Set(r, s.backdrops.Get(r).(hidden := false)))
  }

  /**
   * `hideBackdropOf(part, duration)`: adds `fade-out` at once and schedules the hide; the
   * timer lands in a field nothing clears, so it is appended to the detached timers.
   */
  function HideBackdropOf(s: AppState, part: string, durationMs: nat): (t: AppState)
    ensures t.backdrops.Get(ResolvePart(part)) == s.backdrops.Get(ResolvePart(part)).(fadingOut := true)
    ensures t.detachedTimers == s.detachedTimers + [HideBackdropTimeout(durationMs, ResolvePart(part))]
    ensures forall q :: q != ResolvePart(part) ==> t.backdrops.Get(q) == s.backdrops.Get(q)
    ensures t == s.(backdrops := t.backdrops, detachedTimers := t.detachedTimers)
  {
    var r := ResolvePart(part);
    s.(backdrops := s.backdrops.Set(r, s.backdrops.Get(r).(fadingOut := true)),
       detachedTimers := s.detachedTimers + [HideBackdropTimeout(durationMs, r)])
  }

  /**
   * `toggleBackdrop`, `toggleMainBackdrop`, `toggleAsideBackdrop` (for DEFAULT_PART,
   * MAIN_PART and ASIDE_PART): show the region's backdrop when hidden, hide it otherwise.
   */
  function ToggleBackdropOf(s: AppState, part: string): (t: AppState)
    ensures s.backdrops.Get(ResolvePart(part)).hidden ==> t == ShowBackdropOf(s, part)
    ensures !s.backdrops.Get(ResolvePart(part)).hidden ==> t == HideBackdropOf(s, part, DEFAULT_BACKDROP_HIDE_MS)
  {
    if s.backdrops.Get(ResolvePart(part)).hidden then ShowBackdropOf(s, part)
    else HideBackdropOf(s, part, DEFAULT_BACKDROP_HIDE_MS)
  }

  // ---------------------------------------------------------------------------
  // Menus
  // ---------------------------------------------------------------------------

  /** `querySelector` by `data-id` in one container: the element, if there is one. */
  function NodeById(c: Container, id: string): (n: Option<Node>)
    ensures n.Some? <==> id in c.nodes
    ensures n.Some? ==> n.value == c.nodes[id]
  {
    if id in c.nodes then Some(c.nodes[id]) else None
  }

  /** The lookup `showMenuById` makes itself: `[data-id=…]` in the region's menus container. */
  function MenusContainerQuery(s: AppState, menuId: string, part: string): (n: Option<Node>)
    ensures n.Some? <==> menuId in s.menuContainers.Get(ResolvePart(part)).nodes
    ensures n.Some? ==> n.value == s.menuContainers.Get(ResolvePart(part)).nodes[menuId]
  {
    NodeById(s.menuContainers.Get(ResolvePart(part)), menuId)
  }

  /**
   * `getMenuById(menuId, part)` as the class ends up with it: the class body defines the name
   * twice and the later definition replaces the earlier, so the lookup is
   * `dialog[data-id=…]` in the region's DIALOGS container. `hideMenuById`, `toggleMenuById`
   * and `isMenuShownById` all go through it.
   */
  function GetMenuById(s: AppState, menuId: string, part: string): (n: Option<Node>)
    ensures n.Some? <==> menuId in s.dialogContainers.Get(ResolvePart(part)).nodes
    ensures n.Some? ==> n.value == s.dialogContainers.Get(ResolvePart(part)).nodes[menuId]
  {
    NodeById(s.dialogContainers.Get(ResolvePart(part)), menuId)
  }

  /** The reason a menu promise is rejected with. */
  function MenuNotFound(menuId: string): (reason: string)
    ensures |reason| == |menuId| + 29
    ensures reason[14..14 + |menuId|] == menuId
  {
    "Menu with id \"" + menuId + "\" doesn't exist"
  }

  /** The promises held by the two menu timer slots. */
  function MenuSlotPromises(s: AppState): set<nat> {
    (if s.showMenuTimer.Some? then {s.showMenuTimer.value.promise} else {})
    + (if s.hideMenuTimer.Some? then {s.hideMenuTimer.value.promise} else {})
  }

  /**
   * `clearTimeout(this._showMenuTimer); clearTimeout(this._hideMenuTimer)`: both slots
   * emptied, app-wide; the promises they would have resolved are now superseded.
   */
  function CancelMenuTimers(s: AppState): (t: AppState)
    ensures t.showMenuTimer.None? && t.hideMenuTimer.None?
    ensures t.superseded == s.superseded + MenuSlotPromises(s)
    ensures t == s.(showMenuTimer := None, hideMenuTimer := None, superseded := t.superseded)
  {
    s.(showMenuTimer := None, hideMenuTimer := None, superseded := s.superseded + MenuSlotPromises(s))
  }

  /**
   * `showMenuById(menuId, duration, part)`: rejects, changing nothing, when the menus
   * container has no such element. Otherwise shows the region's backdrop, unhides the menu
   * and its container, cancels both menu timers and schedules the activation, which will
   * resolve a fresh promise.
   */
  function ShowMenuById(s: AppState, menuId: string, durationMs: nat, part: string): (o: (AppState, Promise))
    ensures MenusContainerQuery(s, menuId, part).None? <==> o.1.Rejected?
    ensures o.1.Rejected? ==> o.0 == s && o.1.reason == MenuNotFound(menuId)
    ensures o.1.Awaiting? ==>
      var r := ResolvePart(part);
      var menus := o.0.menuContainers.Get(r);
      && o.1.id == s.nextPromise && o.0.nextPromise == s.nextPromise + 1
      && o.0.showMenuTimer == Some(MenuTimeout(durationMs, r, menuId, s.nextPromise))
      && o.0.hideMenuTimer.None?
      && o.0.superseded == s.superseded + MenuSlotPromises(s)
      && !menus.hidden && menuId in menus.nodes && !menus.nodes[menuId].hidden
      && menus.nodes == s.menuContainers.Get(r).nodes[menuId := s.menuContainers.Get(r).nodes[menuId].(hidden := false)]
      && !o.0.backdrops.Get(r).hidden
      && (forall q :: q != r ==> o.0.menuContainers.Get(q) == s.menuContainers.Get(q))
      && (forall q :: q != r ==> o.0.backdrops.Get(q) == s.backdrops.Get(q))
      && o.0 == s.(backdrops := o.0.backdrops, menuContainers := o.0.menuContainers,
                   showMenuTimer := o.0.showMenuTimer, hideMenuTimer := None,
                   superseded := o.0.superseded, nextPromise := o.0.nextPromise)
  {
    var r := ResolvePart(part);
    var menus := s.menuContainers.Get(r);
    match MenusContainerQuery(s, menuId, part)
    case None => (s, Rejected(MenuNotFound(menuId)))
    case Some(node) =>
      var withBackdrop := ShowBackdropOf(s, part);
      var shown := menus.(hidden := false, nodes := menus.nodes[menuId := node.(hidden := false)]);
      var cancelled := CancelMenuTimers(withBackdrop);
      (cancelled.(menuContainers := cancelled.menuContainers.Set(r, shown),
                  showMenuTimer := Some(MenuTimeout(durationMs, r, menuId, s.nextPromise)),
                  nextPromise := s.nextPromise + 1),
       Awaiting(s.nextPromise))
  }

  /**
   * `hideMenuById(menuId, duration, part)`: rejects, changing nothing, when `getMenuById`
   * finds nothing. Otherwise starts hiding the region's backdrop, cancels both menu timers
   * and schedules the deactivation, which will resolve a fresh promise.
   */
  function HideMenuById(s: AppState, menuId: string, durationMs: nat, part: string): (o: (AppState, Promise))
    ensures GetMenuById(s, menuId, part).None? <==> o.1.Rejected?
    ensures o.1.Rejected? ==> o.0 == s && o.1.reason == MenuNotFound(menuId)
    ensures o.1.Awaiting? ==>
      var r := ResolvePart(part);
      && o.1.id == s.nextPromise && o.0.nextPromise == s.nextPromise + 1
      && o.0.hideMenuTimer == Some(MenuTimeout(durationMs, r, menuId, s.nextPromise))
      && o.0.showMenuTimer.None?
      && o.0.superseded == s.superseded + MenuSlotPromises(s)
      && o.0.backdrops.Get(r) == s.backdrops.Get(r).(fadingOut := true)
      && (forall q :: q != r ==> o.0.backdrops.Get(q) == s.backdrops.Get(q))
      && o.0.detachedTimers == s.detachedTimers + [HideBackdropTimeout(DEFAULT_BACKDROP_HIDE_MS, r)]
      && o.0.menuContainers == s.menuContainers && o.0.dialogContainers == s.dialogContainers
      && o.0 == s.(backdrops := o.0.backdrops, detachedTimers := o.0.detachedTimers,
                   showMenuTimer := None, hideMenuTimer := o.0.hideMenuTimer,
                   superseded := o.0.superseded, nextPromise := o.0.nextPromise)
  {
    var r := ResolvePart(part);
    if GetMenuById(s, menuId, part).None? then (s, Rejected(MenuNotFound(menuId)))
    else
      var cancelled := CancelMenuTimers(HideBackdropOf(s, part, DEFAULT_BACKDROP_HIDE_MS));
      (cancelled.(hideMenuTimer := Some(MenuTimeout(durationMs, r, menuId, s.nextPromise)),
                  nextPromise := s.nextPromise + 1),
       Awaiting(s.nextPromise))
  }

  /** `isMenuShownById(menuId, part)`: false when `getMenuById` finds nothing, else `!hidden`. */
  function IsMenuShownById(s: AppState, menuId: string, part: string): (shown: bool)
    ensures shown <==> GetMenuById(s, menuId, part).Some? && !GetMenuById(s, menuId, part).value.hidden
  {
    match GetMenuById(s, menuId, part)
    case None => false
    case Some(node) => !node.hidden
  }

  /**
   * `toggleMenuById(menuId, duration, part)`: `undefined` (None) and no change when
   * `getMenuById` finds nothing; otherwise hides the menu when it is shown and shows it
   * when it is not.
   */
  function ToggleMenuById(s: AppState, menuId: string, durationMs: nat, part: string): (o: (AppState, Option<Promise>))
    ensures GetMenuById(s, menuId, part).None? ==> o == (s, None)
    ensures GetMenuById(s, menuId, part).Some? && IsMenuShownById(s, menuId, part) ==>
      var h := HideMenuById(s, menuId, durationMs, part); o == (h.0, Some(h.1))
    ensures GetMenuById(s, menuId, part).Some? && !IsMenuShownById(s, menuId, part) ==>
      var h := ShowMenuById(s, menuId, durationMs, part); o == (h.0, Some(h.1))
  {
    if GetMenuById(s, menuId, part).None? then (s, None)
    else if IsMenuShownById(s, menuId, part) then
      var h := HideMenuById(s, menuId, durationMs, part); (h.0, Some(h.1))
    else
      var h := ShowMenuById(s, menuId, durationMs, part); (h.0, Some(h.1))
  }

  /** The `_showMenuTimer` callback: the captured menu gets `active`; its promise resolves. */
  function FireShowMenuTimer(s: AppState): (t: AppState)
    ensures s.showMenuTimer.None? ==> t == s
    ensures s.showMenuTimer.Some? ==>
      var m := s.showMenuTimer.value;
      var menus := s.menuContainers.Get(m.region);
      && t.showMenuTimer.None?
      && t.resolved == s.resolved + {m.promise}
      && (m.menuId in menus.nodes ==>
            t.menuContainers.Get(m.region).nodes == menus.nodes[m.menuId := menus.nodes[m.menuId].(active := true)])
      && (m.menuId !in menus.nodes ==> t.menuContainers == s.menuContainers)
      && t.menuContainers.Get(m.region).hidden == menus.hidden
      && (forall q :: q != m.region ==> t.menuContainers.Get(q) == s.menuContainers.Get(q))
      && t == s.(showMenuTimer := None, menuContainers := t.menuContainers, resolved := t.resolved)
  {
    match s.showMenuTimer
    case None => s
    case Some(m) =>
      var menus := s.menuContainers.Get(m.region);
      var activated :=
        if m.menuId in menus.nodes
        then menus.(nodes := menus.nodes[m.menuId := menus.nodes[m.menuId].(active := true)])
        else menus;
      s.(showMenuTimer := None,
         menuContainers := s.menuContainers.Set(m.region, activated),
         resolved := s.resolved + {m.promise})
  }

  /**
   * The `_hideMenuTimer` callback: the element `getMenuById` found (in the dialogs
   * container) loses `active` and is hidden, the region's menus container is hidden, and
   * the promise resolves.
   */
  function FireHideMenuTimer(s: AppState): (t: AppState)
    ensures s.hideMenuTimer.None? ==> t == s
    ensures s.hideMenuTimer.Some? ==>
      var m := s.hideMenuTimer.value;
      var dialogs := s.dialogContainers.Get(m.region);
      && t.hideMenuTimer.None?
      && t.resolved == s.resolved + {m.promise}
      && t.menuContainers.Get(m.region).hidden
      && (m.menuId in dialogs.nodes ==>
            t.dialogContainers.Get(m.region).nodes == dialogs.nodes[m.menuId := Node(true, false)])
      && (m.menuId !in dialogs.nodes ==> t.dialogContainers == s.dialogContainers)
      && t.dialogContainers.Get(m.region).hidden == dialogs.hidden
      && t.menuContainers.Get(m.region).nodes == s.menuContainers.Get(m.region).nodes
      && (forall q :: q != m.region ==> t.dialogContainers.Get(q) == s.dialogContainers.Get(q))
      && (forall q :: q != m.region ==> t.menuContainers.Get(q) == s.menuContainers.Get(q))
      && t == s.(hideMenuTimer := None, dialogContainers := t.dialogContainers,
                 menuContainers := t.menuContainers, resolved := t.resolved)
  {
    match s.hideMenuTimer
    case None => s
    case Some(m) =>
      var dialogs := s.dialogContainers.Get(m.region);
      var deactivated :=
        if m.menuId in dialogs.nodes then dialogs.(nodes := dialogs.nodes[m.menuId := Node(true, false)])
        else dialogs;
      var menus := s.menuContainers.Get(m.region);
      s.(hideMenuTimer := None,
         dialogContainers := s.dialogContainers.Set(m.region, deactivated),
         menuContainers := s.menuContainers.Set(m.region, menus.(hidden := true)),
         resolved := s.resolved + {m.promise})
  }

  // ---------------------------------------------------------------------------
  // The aside
  // ---------------------------------------------------------------------------

  /** `openAside(duration)`: unhides the aside and marks it `opened`; its promise resolves after `durationMs`. */
  function OpenAside(s: AppState, durationMs: nat): (o: (AppState, nat))
    ensures o.1 == s.nextPromise && o.0.nextPromise == s.nextPromise + 1
    ensures !o.0.aside.hidden && o.0.aside.openedAttr && o.0.aside.closingAttr == s.aside.closingAttr
    ensures o.0.detachedTimers == s.detachedTimers + [OpenAsideTimeout(durationMs, s.nextPromise)]
    ensures o.0 == s.(aside := o.0.aside, detachedTimers := o.0.detachedTimers, nextPromise := o.0.nextPromise)
  {
    (s.(aside := s.aside.(hidden := false, openedAttr := true),
        detachedTimers := s.detachedTimers + [OpenAsideTimeout(durationMs, s.nextPromise)],
        nextPromise := s.nextPromise + 1),
     s.nextPromise)
  }

  /** `closeAside(duration)`: marks the aside `closing`; the close itself happens when its timer fires. */
  function CloseAside(s: AppState, durationMs: nat): (o: (AppState, nat))
    ensures o.1 == s.nextPromise && o.0.nextPromise == s.nextPromise + 1
    ensures o.0.aside == s.aside.(closingAttr := true)
    ensures o.0.detachedTimers == s.detachedTimers + [CloseAsideTimeout(durationMs, s.nextPromise)]
    ensures o.0 == s.(aside := o.0.aside, detachedTimers := o.0.detachedTimers, nextPromise := o.0.nextPromise)
  {
    (s.(aside := s.aside.(closingAttr := true),
        detachedTimers := s.detachedTimers + [CloseAsideTimeout(durationMs, s.nextPromise)],
        nextPromise := s.nextPromise + 1),
     s.nextPromise)
  }

  /** The pending timers with detached timer `i` taken out. */
  function Without(timers: seq<DetachedTimeout>, i: nat): (rest: seq<DetachedTimeout>)
    requires i < |timers|
    ensures |rest| == |timers| - 1
    ensures forall j :: 0 <= j < i ==> rest[j] == timers[j]
    ensures forall j :: i <= j < |rest| ==> rest[j] == timers[j + 1]
  {
    timers[..i] + timers[i + 1..]
  }

  /**
   * Detached timer `i` fires: a backdrop hide sets `hidden` and drops `fade-out`; an aside
   * open resolves its promise; an aside close drops `opened` and `closing`, hides the aside
   * and resolves its promise.
   */
  function FireDetachedTimer(s: AppState, i: nat): (t: AppState)
    requires i < |s.detachedTimers|
    ensures t.detachedTimers == Without(s.detachedTimers, i)
    ensures s.detachedTimers[i].HideBackdropTimeout? ==>
      && t.backdrops.Get(s.detachedTimers[i].region) == Backdrop(true, false)
      && (forall q :: q != s.detachedTimers[i].region ==> t.backdrops.Get(q) == s.backdrops.Get(q))
      && t == s.(detachedTimers := t.detachedTimers, backdrops := t.backdrops)
    ensures s.detachedTimers[i].OpenAsideTimeout? ==>
      && t.resolved == s.resolved + {s.detachedTimers[i].promise}
      && t == s.(detachedTimers := t.detachedTimers, resolved := t.resolved)
    ensures s.detachedTimers[i].CloseAsideTimeout? ==>
      && t.aside == AsideElement(true, false, false) && t.resolved == s.resolved + {s.detachedTimers[i].promise}
      && t == s.(detachedTimers := t.detachedTimers, aside := t.aside, resolved := t.resolved)
  {
    var rest := Without(s.detachedTimers, i);
    match s.detachedTimers[i]
    case HideBackdropTimeout(_, r) =>
      s.(detachedTimers := rest, backdrops := s.backdrops.Set(r, Backdrop(true, false)))
    case OpenAsideTimeout(_, p) =>
      s.(detachedTimers := rest, resolved := s.resolved + {p})
    case CloseAsideTimeout(_, p) =>
      s.(detachedTimers := rest, aside := AsideElement(true, false, false), resolved := s.resolved + {p})
  }
}

=== FILE: parts.dfy ===
/**
 * The three page regions ("parts") of the Maxaboom app and the resolver that maps a
 * part tag to the region whose surfaces an operation works on.
 */
module Parts {

  /** Part tags, as the app exports them. */
  const MAIN_PART: string := "0p"
  const ASIDE_PART: string := "1p"
  const FULL_PART: string := "2p"
  const DEFAULT_PART: string := FULL_PART

  /** The regions that own surfaces: `<main>`, `<aside>` and the full page (`<body>`). */
  datatype Region = Main | Aside | Full

  /**
   * The ternary `part === MAIN_PART ? main… : (part === ASIDE_PART ? aside… : default…)`
   * that every region-scoped operation uses. Total: any other tag selects the full page.
   */
  function ResolvePart(part: string): (r: Region)
    ensures r == Main <==> part == MAIN_PART
    ensures r == Aside <==> part == ASIDE_PART
    ensures r == Full <==> part != MAIN_PART && part != ASIDE_PART
  {
    if part == MAIN_PART then Main
    else if part == ASIDE_PART then Aside
    else Full
  }

  /** The default part (FULL_PART) resolves to the full page. */
  lemma DefaultPartIsFull()
    ensures ResolvePart(DEFAULT_PART) == Full
  {
  }

  /** One surface of some kind per region: the page layout owns exactly three of each. */
  datatype PerRegion<T> = PerRegion(main: T, aside: T, full: T) {

    function Get(r: Region): T {
      match r
      case Main => main
      case Aside => aside
      case Full => full
    }

    /** Replaces the surface of region `r`; the other two regions keep theirs. */
    function Set(r: Region, v: T): (u: PerRegion<T>)
      ensures u.Get(r) == v
      ensures forall q :: q != r ==> u.Get(q) == Get(q)
    {
      match r
      case Main => this.(main := v)
      case Aside => this.(aside := v)
      case Full => this.(full := v)
    }
  }
}

=== FILE: safety.dfy ===
/**
 * The invariant the overlay coordinator keeps, whatever the order of calls and timer
 * firings: the `toasting` flag agrees with the toast timers, a pending toast callback always
 * finds its toast in place, at most one menu timer is pending, and a promise whose timer was
 * cleared by a later call is never resolved (last call wins).
 */
module Safety {
  import opened Wrappers
  import opened Parts
  import opened Templates
  import opened Overlay

  /** A toasts container holds at most one toast, and is hidden exactly when it holds none. */
  predicate ToastSurfaceWellFormed(ts: ToastSurface) {
    |ts.toasts| <= 1 && (ts.hidden <==> ts.toasts == [])
  }

  /** The container shows exactly one toast, fading out or not. */
  predicate ShowsOneToast(ts: ToastSurface, fading: bool) {
    !ts.hidden && |ts.toasts| == 1 && ts.toasts[0].fadingOut == fading
  }

  /**
   * `toasting` holds exactly while one of the two toast phases is pending, never both; the
   * pending fade finds its region showing one toast not yet fading, the pending removal finds
   * it fading.
   */
  ghost predicate ToastInv(s: AppState) {
    && (s.toasting <==> s.toastOutTimer.Some? || s.toastTimer.Some?)
    && !(s.toastOutTimer.Some? && s.toastTimer.Some?)
    && (forall r :: ToastSurfaceWellFormed(s.toastSurfaces.Get(r)))
    && (s.toastOutTimer.Some? ==> ShowsOneToast(s.toastSurfaces.Get(s.toastOutTimer.value.region), false))
    && (s.toastTimer.Some? ==> ShowsOneToast(s.toastSurfaces.Get(s.toastTimer.value.region), true))
  }

  /** At most one menu timer is pending, and the element it captured is still in its container. */
  ghost predicate MenuInv(s: AppState) {
    && !(s.showMenuTimer.Some? && s.hideMenuTimer.Some?)
    && (s.showMenuTimer.Some? ==>
          s.showMenuTimer.value.menuId in s.menuContainers.Get(s.showMenuTimer.value.region).nodes)
    && (s.hideMenuTimer.Some? ==>
          s.hideMenuTimer.value.menuId in s.dialogContainers.Get(s.hideMenuTimer.value.region).nodes)
  }

  /** A pending promise: issued, not resolved, not superseded, not held by a menu slot. */
  ghost predicate DetachedPromiseFresh(s: AppState, p: nat) {
    p < s.nextPromise && p !in s.resolved && p !in s.superseded && p !in MenuSlotPromises(s)
  }

  /**
   * Promises: every id was issued; no promise is both resolved and superseded; a pending
   * promise is neither; two pending timers never share a promise.
   */
  ghost predicate PromiseInv(s: AppState) {
    && (forall p :: p in s.resolved ==> p < s.nextPromise)
    && (forall p :: p in s.superseded ==> p < s.nextPromise)
    && s.resolved !! s.superseded
    && (forall p :: p in MenuSlotPromises(s) ==> p < s.nextPromise && p !in s.resolved && p !in s.superseded)
    && (forall i :: 0 <= i < |s.detachedTimers| && s.detachedTimers[i].Promised() ==>
          DetachedPromiseFresh(s, s.detachedTimers[i].promise))
    && (forall i, j :: 0 <= i < j < |s.detachedTimers| && s.detachedTimers[i].Promised() && s.detachedTimers[j].Promised() ==>
          s.detachedTimers[i].promise != s.detachedTimers[j].promise)
  }

  ghost predicate Inv(s: AppState) {
    ToastInv(s) && MenuInv(s) && PromiseInv(s)
  }

  /** Growth: promises once superseded or resolved stay so, and ids are never reissued. */
  ghost predicate Grows(s: AppState, t: AppState) {
    s.superseded <= t.superseded && s.resolved <= t.resolved && s.nextPromise <= t.nextPromise
  }

  lemma InitialInv(menus: PerRegion<Container>, dialogs: PerRegion<Container>)
    ensures Inv(Initial(menus, dialogs))
  {
  }

  // ---------------------------------------------------------------------------
  // Every call and every timer firing, as an event
  // ---------------------------------------------------------------------------

  datatype Event =
    | ShowToastEvent(params: ToastParams, timeoutMs: nat, force: bool)
    | FireToastOutEvent
    | FireToastEvent
    | ShowBackdropEvent(part: string)
    | HideBackdropEvent(part: string, durationMs: nat)
    | ToggleBackdropEvent(part: string)
    | ShowMenuEvent(menuId: string, durationMs: nat, part: string)
    | HideMenuEvent(menuId: string, durationMs: nat, part: string)
    | ToggleMenuEvent(menuId: string, durationMs: nat, part: string)
    | FireShowMenuEvent
    | FireHideMenuEvent
    | OpenAsideEvent(durationMs: nat)
    | CloseAsideEvent(durationMs: nat)
    | FireDetachedEvent(index: nat)

  /** The state after one event; firing a detached timer that does not exist changes nothing. */
  function Apply(s: AppState, e: Event): AppState {
    match e
    case ShowToastEvent(params, timeoutMs, force) => ShowToast(s, params, timeoutMs, force)
    case FireToastOutEvent => FireToastOutTimer(s)
    case FireToastEvent => FireToastTimer(s)
    case ShowBackdropEvent(part) => ShowBackdropOf(s, part)
    case HideBackdropEvent(part, d) => HideBackdropOf(s, part, d)
    case ToggleBackdropEvent(part) => ToggleBackdropOf(s, part)
    case ShowMenuEvent(id, d, part) => ShowMenuById(s, id, d, part).0
    case HideMenuEvent(id, d, part) => HideMenuById(s, id, d, part).0
    case ToggleMenuEvent(id, d, part) => ToggleMenuById(s, id, d, part).0
    case FireShowMenuEvent => FireShowMenuTimer(s)
    case FireHideMenuEvent => FireHideMenuTimer(s)
    case OpenAsideEvent(d) => OpenAside(s, d).0
    case CloseAsideEvent(d) => CloseAside(s, d).0
    case FireDetachedEvent(i) => if i < |s.detachedTimers| then FireDetachedTimer(s, i) else s
  }

  /** The state after a whole sequence of events. */
  function Run(s: AppState, events: seq<Event>): AppState
    decreases |events|
  {
    if |events| == 0 then s else Run(Apply(s, events[0]), events[1..])
  }

  // ---------------------------------------------------------------------------
  // Preservation, operation by operation
  // ---------------------------------------------------------------------------

  lemma ShowToastInv(s: AppState, params: ToastParams, timeoutMs: nat, force: bool)
    requires Inv(s)
    ensures Inv(ShowToast(s, params, timeoutMs, force)) && Grows(s, ShowToast(s, params, timeoutMs, force))
  {
    var t := ShowToast(s, params, timeoutMs, force);
    if ToastAccepted(s, force) {
      var r := ToastRegion(params);
      forall q ensures ToastSurfaceWellFormed(t.toastSurfaces.Get(q)) {
        if q != r { assert t.toastSurfaces.Get(q) == s.toastSurfaces.Get(q); }
      }
    }
  }

  lemma FireToastOutTimerInv(s: AppState)
    requires Inv(s)
    ensures Inv(FireToastOutTimer(s)) && Grows(s, FireToastOutTimer(s))
  {
    var t := FireToastOutTimer(s);
    if s.toastOutTimer.Some? {
      var r := s.toastOutTimer.value.region;
      forall q ensures ToastSurfaceWellFormed(t.toastSurfaces.Get(q)) {
        if q != r { assert t.toastSurfaces.Get(q) == s.toastSurfaces.Get(q); }
      }
    }
  }

  lemma FireToastTimerInv(s: AppState)
    requires Inv(s)
    ensures Inv(FireToastTimer(s)) && Grows(s, FireToastTimer(s))
  {
    var t := FireToastTimer(s);
    if s.toastTimer.Some? {
      var r := s.toastTimer.value.region;
      forall q ensures ToastSurfaceWellFormed(t.toastSurfaces.Get(q)) {
        if q != r { assert t.toastSurfaces.Get(q) == s.toastSurfaces.Get(q); }
      }
    }
  }

  lemma ShowBackdropInv(s: AppState, part: string)
    requires Inv(s)
    ensures Inv(ShowBackdropOf(s, part)) && Grows(s, ShowBackdropOf(s, part))
  {
  }

  lemma HideBackdropInv(s: AppState, part: string, durationMs: nat)
    requires Inv(s)
    ensures Inv(HideBackdropOf(s, part, durationMs)) && Grows(s, HideBackdropOf(s, part, durationMs))
  {
    var t := HideBackdropOf(s, part, durationMs);
    assert t.detachedTimers[..|s.detachedTimers|] == s.detachedTimers;
  }

  lemma ToggleBackdropInv(s: AppState, part: string)
    requires Inv(s)
    ensures Inv(ToggleBackdropOf(s, part)) && Grows(s, ToggleBackdropOf(s, part))
  {
    if s.backdrops.Get(ResolvePart(part)).hidden { ShowBackdropInv(s, part); }
    else { HideBackdropInv(s, part, DEFAULT_BACKDROP_HIDE_MS); }
  }

  lemma ShowMenuInv(s: AppState, menuId: string, durationMs: nat, part: string)
    requires Inv(s)
    ensures Inv(ShowMenuById(s, menuId, durationMs, part).0) && Grows(s, ShowMenuById(s, menuId, durationMs, part).0)
  {
  }

  lemma HideMenuInv(s: AppState, menuId: string, durationMs: nat, part: string)
    requires Inv(s)
    ensures Inv(HideMenuById(s, menuId, durationMs, part).0) && Grows(s, HideMenuById(s, menuId, durationMs, part).0)
  {
    if GetMenuById(s, menuId, part).Some? {
      HideBackdropInv(s, part, DEFAULT_BACKDROP_HIDE_MS);
    }
  }

  lemma ToggleMenuInv(s: AppState, menuId: string, durationMs: nat, part: string)
    requires Inv(s)
    ensures Inv(ToggleMenuById(s, menuId, durationMs, part).0) && Grows(s, ToggleMenuById(s, menuId, durationMs, part).0)
  {
    if GetMenuById(s, menuId, part).Some? {
      if IsMenuShownById(s, menuId, part) { HideMenuInv(s, menuId, durationMs, part); }
      else { ShowMenuInv(s, menuId, durationMs, part); }
    }
  }

  lemma FireShowMenuInv(s: AppState)
    requires Inv(s)
    ensures Inv(FireShowMenuTimer(s)) && Grows(s, FireShowMenuTimer(s))
  {
  }

  lemma FireHideMenuInv(s: AppState)
    requires Inv(s)
    ensures Inv(FireHideMenuTimer(s)) && Grows(s, FireHideMenuTimer(s))
  {
  }

  lemma OpenAsideInv(s: AppState, durationMs: nat)
    requires Inv(s)
    ensures Inv(OpenAside(s, durationMs).0) && Grows(s, OpenAside(s, durationMs).0)
  {
  }

  lemma CloseAsideInv(s: AppState, durationMs: nat)
    requires Inv(s)
    ensures Inv(CloseAside(s, durationMs).0) && Grows(s, CloseAside(s, durationMs).0)
  {
  }

  lemma FireDetachedInv(s: AppState, i: nat)
    requires Inv(s) && i < |s.detachedTimers|
    ensures Inv(FireDetachedTimer(s, i)) && Grows(s, FireDetachedTimer(s, i))
  {
  }

  /** One event keeps the invariant. */
  lemma ApplyInv(s: AppState, e: Event)
    requires Inv(s)
    ensures Inv(Apply(s, e)) && Grows(s, Apply(s, e))
  {
    match e
    case ShowToastEvent(params, timeoutMs, force) => ShowToastInv(s, params, timeoutMs, force);
    case FireToastOutEvent => FireToastOutTimerInv(s);
    case FireToastEvent => FireToastTimerInv(s);
    case ShowBackdropEvent(part) => ShowBackdropInv(s, part);
    case HideBackdropEvent(part, d) => HideBackdropInv(s, part, d);
    case ToggleBackdropEvent(part) => ToggleBackdropInv(s, part);
    case ShowMenuEvent(id, d, part) => ShowMenuInv(s, id, d, part);
    case HideMenuEvent(id, d, part) => HideMenuInv(s, id, d, part);
    case ToggleMenuEvent(id, d, part) => ToggleMenuInv(s, id, d, part);
    case FireShowMenuEvent => FireShowMenuInv(s);
    case FireHideMenuEvent => FireHideMenuInv(s);
    case OpenAsideEvent(d) => OpenAsideInv(s, d);
    case CloseAsideEvent(d) => CloseAsideInv(s, d);
    case FireDetachedEvent(i) => if i < |s.detachedTimers| { FireDetachedInv(s, i); }
  }

  /** Any sequence of calls and timer firings keeps the invariant. */
  lemma {:induction false} RunInv(s: AppState, events: seq<Event>)
    requires Inv(s)
    ensures Inv(Run(s, events)) && Grows(s, Run(s, events))
    decreases |events|
  {
    if |events| > 0 {
      ApplyInv(s, events[0]);
      RunInv(Apply(s, events[0]), events[1..]);
    }
  }

  /**
   * Last call wins, for good: a promise superseded by a later menu call is never resolved,
   * whatever happens afterwards.
   */
  lemma SupersededNeverResolves(s: AppState, events: seq<Event>, p: nat)
    requires Inv(s) && p in s.superseded
    ensures p !in Run(s, events).resolved
  {
    RunInv(s, events);
  }
}

=== FILE: templates.dfy ===
/**
 * The pure template helpers of the app: the `html` tag function (strings interleaved with
 * values, array values joined by a space) and the content of a toast.
 */
module Templates {

  /** Toast types, as the app exports them. */
  const ERROR_TOAST: string := "et"
  const SUCCESS_TOAST: string := "st"
  const GOOD_TOAST: string := "1t"
  const BAD_TOAST: string := "2t"
  const NORMAL_TOAST: string := "0t"
  const DEFAULT_TOAST: string := NORMAL_TOAST

  // ---------------------------------------------------------------------------
  // Array values: `value.join(' ')` and its inverse `split(' ')`
  // ---------------------------------------------------------------------------

  /** `s` ends with `suffix`. */
  predicate EndsWith(s: string, suffix: string) {
    |suffix| <= |s| && s[|s| - |suffix|..] == suffix
  }

  /** A string that ends with `suffix` still does once something is put in front of it. */
  lemma EndsWithPrepend(prefix: string, s: string, suffix: string)
    requires EndsWith(s, suffix)
    ensures EndsWith(prefix + s, suffix)
  {
    assert (prefix + s)[|prefix + s| - |suffix|..] == s[|s| - |suffix|..];
  }

  /** `items.join(' ')`: the first item, a space, …, the last item. */
  function JoinWithSpace(items: seq<string>): (joined: string)
    ensures |items| == 0 ==> joined == ""
    ensures |items| > 0 ==> items[0] <= joined && EndsWith(joined, items[|items| - 1])
    ensures |items| > 1 ==> |items[0]| < |joined| && joined[|items[0]|] == ' '
  {
    if |items| == 0 then ""
    else if |items| == 1 then items[0]
    else
      var rest := JoinWithSpace(items[1..]);
      EndsWithPrepend(items[0] + " ", rest, items[|items| - 1]);
      items[0] + " " + rest
  }

  /** Index of the first space of `s`. */
  function FirstSpace(s: string): (k: nat)
    requires ' ' in s
    ensures k < |s| && s[k] == ' '
    ensures forall j :: 0 <= j < k ==> s[j] != ' '
  {
    if s[0] == ' ' then 0 else 1 + FirstSpace(s[1..])
  }

  /** `s.split(' ')`: the pieces between spaces, an empty string giving `[""]`. */
  function SplitOnSpace(s: string): (pieces: seq<string>)
    ensures |pieces| > 0
    decreases |s|
  {
    if ' ' in s then
      var k := FirstSpace(s);
      [s[..k]] + SplitOnSpace(s[k + 1..])
    else [s]
  }

  predicate NoSpaces(items: seq<string>) {
    forall i :: 0 <= i < |items| ==> ' ' !in items[i]
  }

  /** The join loses nothing: splitting a joined non-empty list of space-free items gives it back. */
  lemma {:induction false} SplitJoin(items: seq<string>)
    requires |items| > 0 && NoSpaces(items)
    ensures SplitOnSpace(JoinWithSpace(items)) == items
  {
    if |items| > 1 {
      var head, rest := items[0], JoinWithSpace(items[1..]);
      var s := head + " " + rest;
      assert s[|head|] == ' ';
      var k := FirstSpace(s);
      assert forall j :: 0 <= j < |head| ==> s[j] == head[j];
      assert k == |head|;
      assert s[..k] == head;
      assert s[k + 1..] == rest;
      SplitJoin(items[1..]);
    }
  }

  // ---------------------------------------------------------------------------
  // The `html` tag function
  // ---------------------------------------------------------------------------

  /** A value substituted into a template: a string, or an array of strings. */
  datatype TemplateValue = Text(text: string) | List(items: seq<string>)

  /** The `values.map(...)` callback: arrays are joined with a space, string values kept. */
  function Substitution(v: TemplateValue): (s: string)
    ensures v.Text? ==> s == v.text
    ensures v.List? && |v.items| == 0 ==> s == ""
    ensures v.List? && |v.items| == 1 ==> s == v.items[0]
    ensures v.List? && |v.items| > 1 ==> v.items[0] <= s && |v.items[0]| < |s| && s[|v.items[0]|] == ' '
  {
    match v
    case Text(t) => t
    case List(items) => JoinWithSpace(items)
  }

  /**
   * `String.raw({ raw: literals }, ...substitutions)`: literal 0, substitution 0, literal 1, …,
   * the last literal; a missing substitution reads as the empty string, and substitutions
   * beyond the last gap are ignored.
   */
  function RawString(literals: seq<string>, substitutions: seq<string>): (raw: string)
    ensures |literals| == 0 ==> raw == ""
    ensures |literals| > 0 ==> literals[0] <= raw && EndsWith(raw, literals[|literals| - 1])
    decreases |literals|
  {
    if |literals| == 0 then ""
    else if |literals| == 1 then literals[0]
    else
      var first := if |substitutions| > 0 then substitutions[0] else "";
      var rest := if |substitutions| > 0 then substitutions[1..] else [];
      var tail := RawString(literals[1..], rest);
      EndsWithPrepend(literals[0] + first, tail, literals[|literals| - 1]);
      literals[0] + first + tail
  }

  /** The `html` tag function: substitute every value, then `String.raw`. */
  function Html(strings: seq<string>, values: seq<TemplateValue>): (markup: string)
    ensures |strings| == 0 ==> markup == ""
    ensures |strings| > 0 ==> strings[0] <= markup && EndsWith(markup, strings[|strings| - 1])
  {
    RawString(strings, seq(|values|, i requires 0 <= i < |values| => Substitution(values[i])))
  }

  /** Concatenation of a sequence of strings. */
  function Concat(parts: seq<string>): string {
    if |parts| == 0 then "" else parts[0] + Concat(parts[1..])
  }

  /** What goes after literal `i`: substitution `i` when there is a gap after it and a value for it. */
  function Gap(literals: seq<string>, substitutions: seq<string>, i: nat): string {
    if i + 1 < |literals| && i < |substitutions| then substitutions[i] else ""
  }

  /** Piece `i` of the output: literal `i` followed by what fills the gap after it. */
  function Pieces(literals: seq<string>, substitutions: seq<string>): seq<string> {
    seq(|literals|, i requires 0 <= i < |literals| => literals[i] + Gap(literals, substitutions, i))
  }

  /** `RawString` is exactly the interleaving of literals with the substitutions that fit between them. */
  lemma {:induction false} RawStringIsInterleaving(literals: seq<string>, substitutions: seq<string>)
    ensures RawString(literals, substitutions) == Concat(Pieces(literals, substitutions))
    decreases |literals|
  {
    var ps := Pieces(literals, substitutions);
    if |literals| == 1 {
      assert ps[0] == literals[0];
      assert Concat(ps) == ps[0] + Concat(ps[1..]);
    } else if |literals| > 1 {
      var rest := if |substitutions| > 0 then substitutions[1..] else [];
      RawStringIsInterleaving(literals[1..], rest);
      var tail := Pieces(literals[1..], rest);
      forall i | 0 <= i < |tail| ensures tail[i] == ps[1..][i] {
        assert Gap(literals[1..], rest, i) == Gap(literals, substitutions, i + 1);
      }
      assert ps[1..] == tail;
    }
  }

  /**
   * `html` puts after each literal but the last the value at the same position, an array value
   * as its items joined by a space and a string value as it is.
   */
  lemma HtmlInterleaves(strings: seq<string>, values: seq<TemplateValue>)
    ensures
      var filled := seq(|strings|, i requires 0 <= i < |strings| =>
        strings[i] + (if i + 1 < |strings| && i < |values| then Substitution(values[i]) else ""));
      Html(strings, values) == Concat(filled)
  {
    var substitutions := seq(|values|, i requires 0 <= i < |values| => Substitution(values[i]));
    RawStringIsInterleaving(strings, substitutions);
    var filled := seq(|strings|, i requires 0 <= i < |strings| =>
      strings[i] + (if i + 1 < |strings| && i < |values| then Substitution(values[i]) else ""));
    assert Pieces(strings, substitutions) == filled;
  }

  /**
   * An array value of at least one item, none of which holds a space, comes out as its items
   * joined by a space and is recovered by a split.
   */
  lemma ListValueRoundTrip(items: seq<string>)
    requires |items| > 0 && NoSpaces(items)
    ensures SplitOnSpace(Substitution(List(items))) == items
  {
    SplitJoin(items);
  }

  // ---------------------------------------------------------------------------
  // Toast content
  // ---------------------------------------------------------------------------

  /** The emoji shown before a toast's message: only the error, good and bad types have one. */
  function ToastEmoji(kind: string): (emoji: string)
    ensures emoji != "" <==> kind in {ERROR_TOAST, GOOD_TOAST, BAD_TOAST}
    ensures |emoji| <= 1
  {
    if kind == ERROR_TOAST then "\U{1F6AB}"
    else if kind == GOOD_TOAST then "\U{1F44D}"
    else if kind == BAD_TOAST then "\U{1F44E}"
    else ""
  }

  /** Different toast types never share an emoji. */
  lemma EmojiIdentifiesType(a: string, b: string)
    requires ToastEmoji(a) != "" && ToastEmoji(a) == ToastEmoji(b)
    ensures a == b
  {
  }

  /**
   * A toast element as the template builds it: the type as the emoji badge's class, the badge
   * hidden for a NORMAL toast, the emoji followed by the message as its text, and whether the
   * fade-out class has been added.
   */
  datatype Toast = Toast(kind: string, emojiHidden: bool, text: string, fadingOut: bool)

  /** The toast the template renders for `kind` and `message`, before it fades. */
  function ToastOf(kind: string, message: string): (t: Toast)
    ensures t.kind == kind && !t.fadingOut
    ensures t.emojiHidden <==> kind == NORMAL_TOAST
    ensures |message| <= |t.text| <= |message| + 1
    ensures t.text[|t.text| - |message|..] == message
    ensures t.text[..|t.text| - |message|] == ToastEmoji(kind)
  {
    Toast(kind, kind == NORMAL_TOAST, ToastEmoji(kind) + message, false)
  }

  /** The message can be read back from a rendered toast once its type is known. */
  lemma ToastMessageRoundTrip(kind: string, message: string)
    ensures ToastOf(kind, message).text[|ToastEmoji(kind)|..] == message
  {
  }
}

=== FILE: wrappers.dfy ===
/** Optional values: a JavaScript `undefined`/`null` on one side, a present value on the other. */
module Wrappers {

  datatype Option<+T> = None | Some(value: T) {

    /** The value, or `default` when absent: JavaScript's `value ?? default`. */
    function GetOr(default: T): (v: T)
      ensures Some? ==> v == value
      ensures None? ==> v == default
    {
      match this
      case Some(v) => v
      case None => default
    }
  }
}
